=== FILE: README.md ===
# Starry extension host — a Dafny model

Starry is a Tauri desktop application that loads *extensions*: native
libraries, each exporting a `new` factory for an object with `id`, `info`,
`load` and `unload`. This project models the part of the host that manages
them.

- **The registry.** `Extensions` is the map of running instances. It loads a
  library's instance (calling `load` and announcing `loaded_extension`) and
  unloads by id or by library (calling `unload` and announcing
  `unloaded_extension`). Both the current version and the older draft are
  modelled.
- **The plugin store.** `Plugins` is the older list-based store, whose unload
  scans from the back with `swap_remove`.
- **The error type.** `CustomError` models the registry's error enum: its
  `From` conversions and its `Display`.
- **The extension manager.** It does three things:
  - At startup it replays the persisted records and reloads every record
    whose `__file_name` is a string.
  - It installs, removes and lists extensions on request. The command loop
    runs the install as written, which stores the file name in a form the
    startup replay skips (see "## Findings").
  - It runs the command loop, which answers a failed request with one
    `error` notification to the requester.
- **Hot reload.** The `Before`, `After` and `ReloadFailed` callbacks, as
  reported by the `dynamic_reload` watcher. `try_hot_reload`
  (`mod.rs:125`) is never called from `start_manager` (`mod.rs:233-381`), so
  in the program as written no reload callback fires. The callbacks are
  modelled as the code defines them.
- **The event bridge.** The emit loop hands notifications to the host
  without their request id and in queue order. The listen loop keeps one
  host handle per event name.

Modules, one per source component:

| module | file | models |
|---|---|---|
| `Results` | results.dfy | `Option` and `Result` |
| `Interface` | interface.dfy | the extension ABI: notifications, listen requests, instances, libraries, the emit channel |
| `ExtensionError` | extension_error.dfy | `CustomError`, its conversions and `Display` |
| `Json` | json.dfy | serde_json's text for a one-entry object of two strings (escaping, and a decoder proved to invert it), and the `Value` operations the manager uses |
| `Db` | db.dfy | the sled tree as a key-sorted list of entries, with `insert`, `remove` and in-order iteration |
| `ExtensionStore` | extension_store.dfy | the registry of `src-tauri/starry` |
| `LegacyExtensionStore` | legacy_store.dfy | the older registry draft, which panics instead of returning errors |
| `PluginStore` | plugin_store.dfy | the plugin store |
| `ExtensionManager` | manager.dfy | the extension manager, its command loop and the hot-reload callback |
| `EventBridge` | bridge.dfy | the emit and listen loops of `start_manager` |

**Inputs.** Everything foreign is an input or an explicit outcome:

- The loader's answer for a file name (`Env.addLibrary`).
- The filesystem's answers: whether the copy failed, whether the path is a
  file, its file name, and whether deleting a path failed.
- serde_json's parse and render of whole records (`Json.Serde`).
- The host's refusal of a broadcast.
- Whether the receiving end of the emit channel is still alive.

**Panics.** A panic is modelled as an outcome (`Panicked`), never as a
precondition. This covers every `unwrap` or `expect` in the modelled
functions that can fail on these inputs. The exception is the `send(..).unwrap()`
in the three host callbacks, which is left out (see "## Left out").

**Which registry the manager calls.** `mod.rs` calls the registry with a
request `Context` and handles `Result`s. Those are the signatures of
`src-tauri/starry/src/extension_manager/extension_store.rs`, so the manager
model is built on `ExtensionStore`. The older draft next to `mod.rs` is
modelled on its own, as `LegacyExtensionStore`.

**Where the code and its design description disagree, the model follows
the code:**

- **Loading an id that is already running** replaces the old instance
  without calling its `unload` (`ExtensionStore.LoadOverwritesWithoutUnload`).
  It is not refused.
- **A reload whose new build fails.** `dynamic_reload` reports `Before`
  first, so the old instance has already been unloaded. A build that then
  fails leaves the extension unloaded
  (`ExtensionManager.FailedReloadLeavesExtensionUnloaded`); it is not kept
  running.
- **Command failures can panic the command loop:**
  - a failed listing (its `unwrap`);
  - an install whose info parses to neither null nor an object (the field
    assignment at `mod.rs:189` panics);
  - a stored record that does not parse during removal;
  - an `error` notification that cannot be sent.
- **Startup** does not check that a record's file still exists. A record
  whose library fails to load panics the replay.
- **Install, then remove, then list.** Suppose an install gets past the copy
  (which, as written, it never does: see `ExtensionManager.InstallWith` under
  "## Left out"), and deleting the path rendered from the stored record
  succeeds. Then the sequence gives `loaded_extension`, then
  `unloaded_extension`, then a listing without the extension
  (`ExtensionManager.InstallRemoveList`). As written, the install is answered
  with an `Io` `error` instead, the removal with the not-installed `error`,
  and the listing follows (`ExtensionManager.InstallRemoveListCopyFails`). There is no `installed_extension` notification.
  That name is sent only by the older registry draft.
- **Listen requests.** Listening to an event that already has a handle
  replaces the tracked handle without unsubscribing the old one. The old
  subscription stays live and can no longer be removed
  (`EventBridge.RelistenLeaksFirstSubscription`).

## Model

| member | source | states |
|---|---|---|
| `ExtensionError.FromSendError` | src-tauri/starry/src/extension_manager/extension_error.rs:16-20 | a send error becomes `EmitSendError` carrying the unsent notification |
| `ExtensionError.FromReloadError` | src-tauri/starry/src/extension_manager/extension_error.rs:22-26 | a loader error becomes `LibLoadError` carrying it |
| `ExtensionError.FromTauriError` | src-tauri/starry/src/extension_manager/extension_error.rs:28-32 | a host error becomes `TauriError` carrying it |
| `ExtensionError.FromJsonError` | src-tauri/starry/src/extension_manager/extension_error.rs:34-38 | a JSON error becomes the host error's `Json` case inside `TauriError`, and no other variant |
| `ExtensionError.FromIoError` | src-tauri/starry/src/extension_manager/extension_error.rs:40-44 | an I/O error becomes the host error's `Io` case inside `TauriError`, and no other variant |
| `ExtensionError.FromString` | src-tauri/starry/src/extension_manager/extension_error.rs:46-50 | a message becomes `ExtRemoveError`, whose display is the message itself |
| `ExtensionError.Display` | src-tauri/starry/src/extension_manager/extension_error.rs:52-61 | each variant displays as the error it wraps: the channel-closed text, the loader's message, the host error's text, or the removal message |
| `Interface.Send` | src-tauri/src/extension_manager/mod.rs:222-226 | a send succeeds exactly while the receiver lives and then appends the message. A failed send changes nothing and hands the message back |
| `ExtensionStore.DefaultContext` | src-tauri/starry/src/extension_manager/extension_store.rs:11-15 | the default request context has the empty id |
| `ExtensionStore.New` | src-tauri/starry/src/extension_manager/extension_store.rs:24-30 | a new registry runs no extension |
| `ExtensionStore.GetService` | src-tauri/starry/src/extension_manager/extension_store.rs:32-42 | the instance is returned exactly when the library exports `new`; otherwise the lookup failure is returned as `LibLoadError(Load(..))` |
| `ExtensionStore.LoadedNotice` | src-tauri/starry/src/extension_manager/extension_store.rs:53-59 | the `loaded_extension` notification is addressed to the request context, and its payload decodes back to exactly `{id: info}` |
| `ExtensionStore.UnloadedNotice` | src-tauri/starry/src/extension_manager/extension_store.rs:69-73 | the `unloaded_extension` notification carries the request context and the id |
| `ExtensionStore.LoadExtension` | src-tauri/starry/src/extension_manager/extension_store.rs:44-63 | a missing factory changes nothing and fails; otherwise `load` runs first. If the announcement is sent, the instance is registered under its id and `(id, info)` is returned. If the channel is closed, the send error is returned and the instance is not registered |
| `ExtensionStore.UnloadExtensionById` | src-tauri/starry/src/extension_manager/extension_store.rs:65-76 | an id not running is a no-op `Ok`. A running id is removed, its `unload` runs, then the announcement is sent; if the channel is closed, the send error is returned after the removal |
| `ExtensionStore.UnloadExtension` | src-tauri/starry/src/extension_manager/extension_store.rs:78-84 | a missing factory changes nothing and fails with `LibLoadError(Load(..))` carrying the lookup's reason. Otherwise this is unloading by the id the library's instance reports: it returns that id, or passes on the unload's error unchanged |
| `ExtensionStore.UnloadByIdIdempotent` | src-tauri/starry/src/extension_manager/extension_store.rs:65-76 | unloading the same id a second time changes nothing and succeeds |
| `ExtensionStore.LoadThenUnloadRestores` | src-tauri/starry/src/extension_manager/extension_store.rs:44-76 | loading an id that is not running and unloading it again restores the registry, and traces load, announce, unload, announce |
| `ExtensionStore.LoadOverwritesWithoutUnload` | src-tauri/starry/src/extension_manager/extension_store.rs:61 | loading a running id replaces the instance, keeps the number of running extensions, and runs no `unload` |
| `LegacyExtensionStore.New` | src-tauri/src/extension_manager/extension_store.rs:12-18 | a new registry runs no extension |
| `LegacyExtensionStore.GetService` | src-tauri/src/extension_manager/extension_store.rs:20-27 | the lookup panics exactly when the library has no `new` symbol |
| `LegacyExtensionStore.InstalledPayload` | src-tauri/src/extension_manager/extension_store.rs:38-42 | the payload is `{"`, the id verbatim, `":`, the info verbatim and `}`, so both can be cut back out at fixed positions |
| `LegacyExtensionStore.LoadExtension` | src-tauri/src/extension_manager/extension_store.rs:29-48 | a missing factory or a closed channel panics; otherwise `load` runs, `installed_extension` is sent with the hand-formatted payload, and the instance is registered |
| `LegacyExtensionStore.UnloadExtensionById` | src-tauri/src/extension_manager/extension_store.rs:50-60 | an id not running is a no-op. A running id is removed, its `unload` runs, and `remove_extension` is sent; a closed channel panics |
| `LegacyExtensionStore.UnloadExtension` | src-tauri/src/extension_manager/extension_store.rs:62-68 | a missing factory panics. Otherwise the instance's id is no longer running afterwards. The call panics exactly when that id was running and the channel is closed, and returns the id in every other case. An id not running leaves the channel untouched; a running id gets its `unload` call, then a `remove_extension` notification if the channel is open |
| `LegacyExtensionStore.LoadKeepsOnePerId` | src-tauri/src/extension_manager/extension_store.rs:46 | after a load, the running ids are the old ones plus the loaded id: at most one instance per id |
| `LegacyExtensionStore.PayloadMatchesSerdeForPlainIds` | src-tauri/src/extension_manager/extension_store.rs:38-42 | for an id with nothing to escape and an info that is a JSON string, the hand-formatted payload equals serde_json's text for `{id: info}` |
| `LegacyExtensionStore.PayloadBrokenByQuoteInId` | src-tauri/src/extension_manager/extension_store.rs:38-42 | for every info, and every id holding a `"` whose part before the first `"` has nothing to escape, the hand-formatted payload never decodes as an entry for the id: the decoder takes the part before the quote for the key, or fails |
| `PluginStore.New` | src-tauri/src/plugin_manager/plugin_store.rs:11-13 | a new store holds no plugin |
| `PluginStore.GetService` | src-tauri/src/plugin_manager/plugin_store.rs:15-22 | the lookup panics exactly when the library has no `new` symbol, and otherwise yields the plugin that `new` builds |
| `PluginStore.LoadPlugin` | src-tauri/src/plugin_manager/plugin_store.rs:24-33 | a missing factory panics; otherwise `load` runs and the plugin is appended, even when one with its id is already present |
| `PluginStore.DuplicatesAllowed` | src-tauri/src/plugin_manager/plugin_store.rs:24-33 | loading the same library twice keeps two plugins with the same id |
| `PluginStore.SwapRemove` | src-tauri/src/plugin_manager/plugin_store.rs:42 | `swap_remove(i)` shortens the list by one, moves the last element into slot `i`, and leaves every other slot unchanged |
| `PluginStore.SwapRemoveMultiset` | src-tauri/src/plugin_manager/plugin_store.rs:42 | `swap_remove(i)` removes exactly one copy of the element at `i` |
| `PluginStore.RemoveAllWithId` | src-tauri/src/plugin_manager/plugin_store.rs:38-44 | the backward scan leaves no plugin with the id. Together with the matching plugins it is a permutation of the input. It calls `unload` on the matching plugins from last to first, and leaves the list untouched when nothing matches |
| `PluginStore.UnloadPlugin` | src-tauri/src/plugin_manager/plugin_store.rs:35-45 | a missing factory panics; otherwise the result is a permutation of the plugins whose id differs. It drops exactly the matching count, unloads the matches from the back, and changes nothing when none match |
| `PluginStore.MatchingAppend` | src-tauri/src/plugin_manager/plugin_store.rs:38-44 | the plugins matching an id in a concatenation are those of each part, in order |
| `Json.ReadEscaped` | src-tauri/starry/src/extension_manager/extension_store.rs:53 | decoding serde_json's escaping of any string, up to the closing quote, gives back that string and the rest of the text |
| `Json.EscapeChar` | src-tauri/starry/src/extension_manager/extension_store.rs:53 | one character as serde_json writes it in a string: itself exactly when it needs no escaping, otherwise a backslash sequence of at most six characters with no quote after its second character |
| `Json.Escape` | src-tauri/starry/src/extension_manager/extension_store.rs:53 | serde_json's escaping of a string: never shorter and at most six times as long, no raw control character, and every quote preceded by a backslash |
| `Json.ObjectTextParses` | src-tauri/src/extension_manager/mod.rs:221 | serde_json's text for the one-entry object `{key: value}` decodes back to exactly `(key, value)` |
| `Json.ObjectText` | src-tauri/src/extension_manager/mod.rs:221 | the text serde_json writes for the one-entry object `{key: value}` of two strings; `Json.ObjectTextParses` states that it decodes back to the entry |
| `Json.ObjectTextInjective` | src-tauri/src/extension_manager/mod.rs:221 | different entries give different payload texts |
| `Json.EscapePlain` | src-tauri/src/extension_manager/extension_store.rs:38-42 | a string with no quote, backslash or control character is its own escaping |
| `Json.Field` | src-tauri/src/extension_manager/mod.rs:112 | indexing a value by key gives the field when the value is an object that has it, and `null` otherwise |
| `Json.SetField` | src-tauri/src/extension_manager/mod.rs:189 | assigning a field succeeds exactly on `null` or an object. The result is an object in which that field is the assigned value and every other field is unchanged |
| `Json.AsStr` | src-tauri/src/extension_manager/mod.rs:112 | a value reads as a string exactly when it is one |
| `Db.BelowTotal` | src-tauri/src/extension_manager/mod.rs:217 | the key order iteration follows is total |
| `Db.BelowTransitive` | src-tauri/src/extension_manager/mod.rs:217 | the key order is transitive |
| `Db.Insert` | src-tauri/src/extension_manager/mod.rs:191 | the tree stays sorted, maps the key to the value, and keeps every other key's value |
| `Db.Remove` | src-tauri/src/extension_manager/mod.rs:201 | the tree stays sorted and loses exactly the key. The old value is returned exactly when the key was present, and an absent key leaves the tree unchanged |
| `ExtensionManager.NewManagerEvent` | src-tauri/src/extension_manager/mod.rs:38-50 | `true` makes an install command and `false` a remove command, each carrying the given id and payload |
| `ExtensionManager.CommandFor` | src-tauri/src/extension_manager/mod.rs:250-274 | a host event with a payload becomes the matching command; anything else becomes nothing. Install and remove take the host event id as request id; a listing takes its payload as request id |
| `ExtensionManager.LoadByFileName` | src-tauri/src/extension_manager/mod.rs:149-160 | a library that fails to open changes nothing and returns `LibLoadError`; an opened library is loaded into the registry |
| `ExtensionManager.Replay` | src-tauri/src/extension_manager/mod.rs:107-119 | replay never touches the records, and if it does not panic it succeeds. It panics if any record does not parse, if any record names a file that cannot be loaded, or if any record names a file while the channel is closed |
| `ExtensionManager.Start` | src-tauri/src/extension_manager/mod.rs:93-119 | startup keeps the persisted records as they are |
| `ExtensionManager.LoadByFileNameLoads` | src-tauri/src/extension_manager/mod.rs:149-160 | a loadable file registers its instance, calls `load` and announces it to the request context |
| `ExtensionManager.ReplayLoadsNamedRecords` | src-tauri/src/extension_manager/mod.rs:107-119 | when every record parses, every named file loads and the channel is open: replay succeeds, loads exactly the records with a string `__file_name`, in iteration order, and announces each to the default context |
| `ExtensionManager.RecordFileName` | src-tauri/src/extension_manager/mod.rs:109-112 | a record names a file exactly when it parses and its `__file_name` field is a string, and the name is that string |
| `ExtensionManager.InstallWith` | src-tauri/src/extension_manager/mod.rs:163-194 | a failed copy fails first and changes nothing. A path that is not a file sends one `error` notification ("该路径不是一个文件") and succeeds, with registry and records unchanged. A library that fails to open returns `LibLoadError`, and any failed load returns its error with the records unchanged. For an instance that loads, info that is not JSON returns the `Json` host error, and info that is neither null nor an object panics at the field assignment; both keep the instance registered and store no record. Records change only on a successful install of a file, and they stay sorted |
| `ExtensionManager.InstallAsWritten` | src-tauri/src/extension_manager/mod.rs:163-194 | the install the command loop runs. A failed copy fails and changes nothing. Failed loads, info that is not JSON, and info that is neither null nor an object end as in `InstallWith`. A successful install registers and announces the instance, and stores its info under its id with `__file_name` set to the `OsStr` serialisation of the file name |
| `ExtensionManager.Install` | src-tauri/src/extension_manager/mod.rs:163-194 | the corrected install: the same failures as the install as written, and a successful install stores the info with `__file_name` set to the file name as a JSON string |
| `ExtensionManager.OsStrValue` | src-tauri/src/extension_manager/mod.rs:189 | the `OsStr` serialisation of a file name is an object, so it never reads as a string |
| `ExtensionManager.InstallStoresRecord` | src-tauri/src/extension_manager/mod.rs:183-191 | a successful install registers and announces the instance. It stores the info under the id, with `__file_name` set to the encoded file name and every other field as the extension reported it |
| `ExtensionManager.AsWrittenRecordIsNotReplayed` | src-tauri/src/extension_manager/mod.rs:183-191 | as written, the stored record's `__file_name` does not read as a string, so startup skips the extension |
| `ExtensionManager.InstalledRecordIsReplayed` | src-tauri/src/extension_manager/mod.rs:183-191 | with the file name stored as a string, the stored record names the installed file. `ExtensionManager.ReplayLoadsNamedRecords` then gives its reload at the next start |
| `ExtensionManager.InstallWithBadInfoKeepsInstance` | src-tauri/src/extension_manager/mod.rs:185-188 | info that is not JSON fails with the `Json` host error after the instance was registered; no record is stored, whatever the file-name encoding |
| `ExtensionManager.Annotated` | src-tauri/src/extension_manager/mod.rs:188-189 | the record stored for parsed info: an object whose `__file_name` is the given value, every other field as in the info |
| `ExtensionManager.Remove` | src-tauri/src/extension_manager/mod.rs:197-214 | records stay sorted and either lose exactly the id or stay as they were. A running id with the channel closed fails with the send error, the instance gone and the records untouched. An id with no record fails with "没有安装 id 为 {id} 的拓展" after unloading any running instance, and changes nothing else. A running id over an open channel gets its `unload` call and an `unloaded_extension` notification, whether or not it has a record, and an id not running leaves the channel untouched. For an id with a record, the record is deleted and the instance unloaded. A record that does not parse then panics, a failed delete of its backing path returns the `Io` host error, and otherwise the removal succeeds |
| `ExtensionManager.NotInstalledMessage` | src-tauri/src/extension_manager/mod.rs:209-212 | the not-installed message holds the id verbatim, after a fixed ten-character prefix and before a fixed four-character suffix |
| `ExtensionManager.BackingPath` | src-tauri/src/extension_manager/mod.rs:205 | the path removal deletes is the JSON text of the record's `__file_name` field, quotes included |
| `ExtensionManager.RemoveInstalled` | src-tauri/src/extension_manager/mod.rs:197-214 | removing a running, installed extension unloads it, announces `unloaded_extension` to the requester, deletes its record and succeeds |
| `ExtensionManager.RemoveTwice` | src-tauri/src/extension_manager/mod.rs:197-214 | removing an installed extension succeeds once; a second removal fails with the not-installed message and changes nothing |
| `ExtensionManager.ListedNotice` | src-tauri/src/extension_manager/mod.rs:219-226 | each listed record is a `loaded_extension` notification to the requester whose payload decodes to exactly `(id, record)` |
| `ExtensionManager.ListEntries` | src-tauri/src/extension_manager/mod.rs:216-230 | listing never changes the registry or the records, and never panics by itself. It fails, with the send error and nothing sent, exactly when there is a record and the channel is closed |
| `ExtensionManager.ListAll` | src-tauri/src/extension_manager/mod.rs:216-230 | listing all records leaves registry and records unchanged; it fails exactly when there is a record and the channel is closed |
| `ExtensionManager.ListEntriesSendsListing` | src-tauri/src/extension_manager/mod.rs:216-230 | with the channel open, listing sends exactly one notification per record, in iteration order, and succeeds |
| `ExtensionManager.ReportFailure` | src-tauri/src/extension_manager/mod.rs:322-331 | a success passes through. A failure with the channel open becomes exactly one `error` notification to the requester, carrying the error's display text; with the channel closed it panics |
| `ExtensionManager.ErrorNotice` | src-tauri/src/extension_manager/mod.rs:326-330 | the `error` notification is addressed to the request id and carries the given message as payload |
| `ExtensionManager.Attempt` | src-tauri/src/extension_manager/mod.rs:310-345 | an install request runs the install as written and a removal request runs the removal; either keeps the records sorted |
| `ExtensionManager.FailedRequestAnsweredOnce` | src-tauri/src/extension_manager/mod.rs:310-358 | a failed install or removal, with the channel open, adds exactly one notification: an `error` to the request id carrying the error's display text. The loop goes on, and registry and records are as the failed call left them |
| `ExtensionManager.Handle` | src-tauri/src/extension_manager/mod.rs:309-367 | one turn keeps the records sorted and, unless it panics, lets the loop go on. A listing leaves registry and records unchanged, and panics through the `unwrap` at line 366 exactly when there is a record and the channel is closed |
| `ExtensionManager.RunCommands` | src-tauri/src/extension_manager/mod.rs:307-370 | the loop keeps the records sorted and ends only by emptying the queue or by a panic |
| `ExtensionManager.RunCommandsConcat` | src-tauri/src/extension_manager/mod.rs:307-370 | commands are handled in queue order: a queue `a + b` runs `a`, then `b` from where `a` left off, and a panic in `a` ends the loop before `b` |
| `ExtensionManager.RunCons` | src-tauri/src/extension_manager/mod.rs:307-370 | a command that does not panic is followed by the rest of the queue from its resulting state |
| `ExtensionManager.InstallRemoveList` | src-tauri/src/extension_manager/mod.rs:307-370 | install (as written, with the `OsStr` file name), remove, list in that order: `load` and `loaded_extension`, then `unload` and `unloaded_extension`, then one notification per remaining record, none of which names the extension. The removal deletes the path rendered from the `OsStr` record |
| `ExtensionManager.InstallRemoveListCopyFails` | src-tauri/src/extension_manager/mod.rs:307-370 | install, remove, list when the copy fails, as the copy onto the install directory at lines 169-173 does: an `error` with the `Io` text to the install's requester, then an `error` with the not-installed message to the removal's requester, then one notification per record. Registry and records are unchanged |
| `ExtensionManager.OnUpdate` | src-tauri/src/extension_manager/mod.rs:128-145 | `Before` unloads by the library's instance id, `After` loads the library, and `ReloadFailed` changes nothing. A missing library or an error panics |
| `ExtensionManager.ReloadSwapsInstance` | src-tauri/src/extension_manager/mod.rs:129-141 | a reload with a stable id calls the old instance's `unload` before the new one's `load`; afterwards exactly the new instance runs under that id |
| `ExtensionManager.FailedReloadLeavesExtensionUnloaded` | src-tauri/src/extension_manager/mod.rs:130-142 | `Before` followed by `ReloadFailed` leaves no instance running under the id |
| `EventBridge.EmitLoop` | src-tauri/src/extension_manager/mod.rs:278-286 | notifications are broadcast in queue order as (event, payload) and none was rejected. The loop panics exactly at the first one the host rejects, and otherwise forwards the whole queue |
| `EventBridge.EmitIgnoresRequestId` | src-tauri/src/extension_manager/mod.rs:279-283 | two queues that differ only in request ids are broadcast identically |
| `EventBridge.NewListener` | src-tauri/src/extension_manager/mod.rs:241 | the handle table starts empty, with no host call made |
| `EventBridge.OnListen` | src-tauri/src/extension_manager/mod.rs:288-305 | `Listen` subscribes on the host, tracks the new handle under the event name and advances the handle counter by one. `Unlisten` unsubscribes the tracked handle only if there is one, and otherwise changes nothing. Other names keep their handles |
| `EventBridge.ListenLoop` | src-tauri/src/extension_manager/mod.rs:288-305 | the loop only appends host calls, at most one per request. The subscriptions it makes get strictly increasing handles between the counter's old and new values, so no handle is reused. It leaves the entry of every event no request names as it was |
| `EventBridge.ListenLoopKeepsTracked` | src-tauri/src/extension_manager/mod.rs:288-305 | every tracked handle is a live host subscription, no handle is tracked under two names, and every live handle came from the host's counter |
| `EventBridge.RelistenLeaksFirstSubscription` | src-tauri/src/extension_manager/mod.rs:291-296 | listen, listen again, unlisten: the first host subscription stays live while no handle is tracked |

## Left out

- **Native loading.** Opening the library, symbol lookup and the `unsafe`
  boundary are left out. The loader's answer for a file name, and the
  factory's instance, are inputs.
- **The `load` and `unload` hooks.** Only their calls and their order are
  modelled. Whatever an extension sends from inside its own hooks is not.
- **The `dynamic_reload` watcher itself** is left out: polling,
  cache-directory copies and the choice of which callbacks to deliver. The
  model takes each callback as it is delivered.
- **Concurrency and the tokio runtime** are left out. Each loop is modelled
  as a function over the messages it receives. The three queues are modelled
  separately because the code gives no ordering between them.
- **Filesystem operations** are inputs:
  - the copy into the install directory;
  - `is_file` and `file_name`;
  - `remove_file`.
- `ExtensionManager.InstallWith`: the copy's outcome (`copyError`) is a
  free input. As written, the copy targets the install directory itself
  (`mod.rs:169-173`), which `ensure_dir_exists` created (`mod.rs:86`), and
  copying onto a directory fails. So in the program as written every install
  ends in `Err(Io)` and nothing after line 173 runs. The model keeps the later
  branches reachable so that they can be stated. Reaching the not-a-file branch
  with a successful copy also needs the path to change between line 173 and
  line 176, because the copy needs a regular file as its source.
- **The path removal deletes** is modelled as written: the JSON text of the
  `__file_name` field, quotes included. Which file that reaches is
  filesystem behaviour and is left out.
- **Directory setup.** `data_dir`, `cache_dir`, directory creation and
  opening the sled tree in `ExtensionManager::new` are I/O and are left out.
- **Storage errors.** A failure of sled's `insert`, `remove` or iteration is
  left out. The tree is a pure sorted map.
- **Text encoding.** Records and file names are modelled as strings of
  characters. The UTF-8 checks (`from_utf8`, `to_str`) cannot fail in the
  model, so the branch of `remove_extension` that skips a record with
  invalid bytes is not modelled.
- **Records are parsed and rendered by abstract functions.** Only the
  one-entry object text used for notifications is written out character by
  character. Its decoder does not accept `\u` escapes that name a surrogate
  half; serde_json never writes those for the strings modelled here.
- **Error text.** The text of the host's wrapped `Json` and `Io` errors is
  the wrapped error's message. The host's exact wording is not modelled.
- `ExtensionError.Display`: a send error displays as the fixed text
  "channel closed". tokio's `SendError` display is not modelled further.
- **Other files.** `tool.rs`, `main.rs`, `plugin_manager/mod.rs` and the
  example extension are context only and are not part of this model.
- **Logging.** The `println!` messages are left out.
- `ExtensionManager.InstallRemoveList`: its trace assumes two things. The
  install must get past the copy, which as written always fails (see
  `ExtensionManager.InstallWith` above). Deleting the path rendered from the
  stored `OsStr` record must also succeed. What the program as written does
  with the same three commands is `ExtensionManager.InstallRemoveListCopyFails`.
- `ExtensionManager.CommandFor`: the host callbacks (`mod.rs:250-274`) also
  `unwrap` the send of the command to the manager loop. That send fails only
  once the manager loop has ended, which happens only after a panic there, so
  it is left out. `CommandFor` models the command a callback builds.
- `EventBridge.EmitLoop`: the host's `emit_all` is reduced to whether it
  accepts a broadcast. Its delivery to windows is not modelled.

## Findings

| source | as written | input that shows it | evidently intended | confidence | as-written member | corrected member |
|---|---|---|---|---|---|---|
| src-tauri/src/extension_manager/mod.rs:189 | `v["__file_name"] = json!(file_name)` serialises an `OsStr`. serde writes that as `{"Unix":[..]}` (or `{"Windows":[..]}`), not as a string, so the startup replay at line 112 finds no string file name | any install that gets past the copy, for example a library `a.so` reporting info `{}`: the stored record is `{"__file_name":{"Unix":[97,46,115,111]}}`. As written, the copy onto the install directory fails first (see `ExtensionManager.InstallWith` under "## Left out"), so this bug stays hidden until that copy is fixed | store the file name as a JSON string, so that the next start reloads the extension | not executed | `ExtensionManager.AsWrittenRecordIsNotReplayed` | `ExtensionManager.InstalledRecordIsReplayed` |

=== FILE: bridge.dfy ===
/**
 The two forwarding tasks of `start_manager`: the emit loop, which hands each
 notification an extension or the manager sends to the host's `emit_all`,
 and the listen loop, which turns listen and unlisten requests into host
 subscriptions and remembers one handle per event name.
 */
module EventBridge {
  import opened Interface

  // ---------------------------------------------------------------------------
  // The emit loop

  /** A broadcast as the host receives it: event name and payload only. */
  datatype Broadcast = Broadcast(event: string, payload: string)

  /** The forwarded broadcasts, and whether the loop's `expect` panicked on a rejected one. */
  datatype Forwarded = Forwarded(sent: seq<Broadcast>, panicked: bool)

  /**
   The emit loop over the queued notifications, with the host's refusals as
   a parameter: each one is broadcast in queue order without its request id;
   the first one the host rejects panics and ends the loop.
   */
  function EmitLoop(queue: seq<EmitContent>, rejects: (string, string) -> bool): (r: Forwarded)
    ensures |r.sent| <= |queue|
    ensures forall k :: 0 <= k < |r.sent| ==>
      r.sent[k] == Broadcast(queue[k].event, queue[k].payload) && !rejects(queue[k].event, queue[k].payload)
    ensures !r.panicked ==> |r.sent| == |queue|
    ensures r.panicked ==> |r.sent| < |queue| && rejects(queue[|r.sent|].event, queue[|r.sent|].payload)
    decreases |queue|
  {
    if queue == [] then Forwarded([], false)
    else if rejects(queue[0].event, queue[0].payload) then Forwarded([], true)
    else
      var rest := EmitLoop(queue[1..], rejects);
      Forwarded([Broadcast(queue[0].event, queue[0].payload)] + rest.sent, rest.panicked)
  }

  /** Two queues that differ only in their notifications' request ids. */
  predicate SameButIds(a: seq<EmitContent>, b: seq<EmitContent>)
  {
    |a| == |b| && forall k :: 0 <= k < |a| ==> a[k].event == b[k].event && a[k].payload == b[k].payload
  }

  /** The emit loop ignores request ids: the host cannot tell who a notification answered. */
  lemma EmitIgnoresRequestId(a: seq<EmitContent>, b: seq<EmitContent>, rejects: (string, string) -> bool)
    requires SameButIds(a, b)
    ensures EmitLoop(a, rejects) == EmitLoop(b, rejects)
  {
    var ra, rb := EmitLoop(a, rejects), EmitLoop(b, rejects);
    if !ra.panicked && !rb.panicked {
      assert ra.sent == rb.sent;
    } else if ra.panicked {
      if rb.panicked {
        assert |ra.sent| == |rb.sent|;
        assert ra.sent == rb.sent;
      }
    }
  }

  // ---------------------------------------------------------------------------
  // The listen loop

  /** A subscription call the loop makes on the host; the host numbers subscriptions. */
  datatype HostCall = Listened(event: string, handler: Callback, handle: nat) | Unlistened(handle: nat)

  /** The loop's handle table, the calls made so far, and the host's next handle number. */
  datatype Listener = Listener(handles: map<string, nat>, calls: seq<HostCall>, next: nat)

  function NewListener(): (l: Listener)
    ensures l.handles == map[] && l.calls == []
  {
    Listener(map[], [], 0)
  }

  /**
   One listen request: `Listen` subscribes on the host and records the new
   handle under the event name, replacing any earlier one without
   unsubscribing it; `Unlisten` unsubscribes the recorded handle, if any.
   */
  function OnListen(l: Listener, msg: ListenContent): (r: Listener)
    ensures r.next >= l.next && |r.calls| <= |l.calls| + 1
    ensures msg.contentType.Unlisten? ==> msg.event !in r.handles && r.next == l.next
    ensures msg.contentType.Unlisten? && msg.event !in l.handles ==> r == l
    ensures msg.contentType.Unlisten? && msg.event in l.handles ==>
      r.calls == l.calls + [Unlistened(l.handles[msg.event])]
    ensures msg.contentType.Listen? ==> msg.event in r.handles && r.handles[msg.event] == l.next
    ensures msg.contentType.Listen? ==> r.next == l.next + 1
    ensures msg.contentType.Listen? ==>
      r.calls == l.calls + [Listened(msg.event, msg.contentType.handler, l.next)]
    ensures forall e :: e != msg.event ==> (e in r.handles <==> e in l.handles)
    ensures forall e :: e != msg.event && e in l.handles ==> r.handles[e] == l.handles[e]
  {
    match msg.contentType
    case Listen(handler) =>
      Listener(l.handles[msg.event := l.next], l.calls + [Listened(msg.event, handler, l.next)], l.next + 1)
    case Unlisten =>
      if msg.event in l.handles then
        Listener(l.handles - {msg.event}, l.calls + [Unlistened(l.handles[msg.event])], l.next)
      else l
  }

  /** The event names a sequence of listen requests mentions. */
  function Events(msgs: seq<ListenContent>): (r: set<string>)
    ensures forall k :: 0 <= k < |msgs| ==> msgs[k].event in r
    decreases |msgs|
  {
    if msgs == [] then {} else {msgs[0].event} + Events(msgs[1..])
  }

  /**
   The handles of the subscriptions among `calls` lie in `[lo, hi)` and
   strictly increase: no two subscriptions share a handle.
   */
  predicate FreshHandles(calls: seq<HostCall>, lo: nat, hi: nat)
  {
    && (forall k :: 0 <= k < |calls| && calls[k].Listened? ==> lo <= calls[k].handle < hi)
    && (forall j, k :: 0 <= j < k < |calls| && calls[j].Listened? && calls[k].Listened? ==>
          calls[j].handle < calls[k].handle)
  }

  /**
   The listen loop over a sequence of requests: host calls are only ever
   appended, at most one per request, handles are never reused, and the
   entry of an event no request mentions is left as it was.
   */
  function ListenLoop(l: Listener, msgs: seq<ListenContent>): (r: Listener)
    ensures r.next >= l.next
    ensures |l.calls| <= |r.calls| <= |l.calls| + |msgs| && r.calls[..|l.calls|] == l.calls
    ensures forall e :: e !in Events(msgs) ==> (e in r.handles <==> e in l.handles)
    ensures forall e :: e !in Events(msgs) && e in l.handles ==> r.handles[e] == l.handles[e]
    ensures FreshHandles(r.calls[|l.calls|..], l.next, r.next)
    decreases |msgs|
  {
    if msgs == [] then l
    else
      var l1 := OnListen(l, msgs[0]);
      var r := ListenLoop(l1, msgs[1..]);
      assert r.calls[|l.calls|..] == l1.calls[|l.calls|..] + r.calls[|l1.calls|..];
      r
  }

  /** The host subscriptions the calls leave in place: subscribed and not since unsubscribed. */
  function Live(calls: seq<HostCall>): (r: set<nat>)
    decreases |calls|
  {
    if calls == [] then {}
    else
      var before := Live(calls[..|calls| - 1]);
      match calls[|calls| - 1]
      case Listened(_, _, h) => before + {h}
      case Unlistened(h) => before - {h}
  }

  /** The handle table tracks only live subscriptions, and all handles come from the host's counter. */
  ghost predicate Tracked(l: Listener)
  {
    && (forall e :: e in l.handles ==> l.handles[e] in Live(l.calls))
    && (forall h :: h in Live(l.calls) ==> h < l.next)
  }

  /** The handle table never holds one handle under two event names. */
  ghost predicate Distinct(l: Listener)
  {
    forall e, f :: e in l.handles && f in l.handles && e != f ==> l.handles[e] != l.handles[f]
  }

  /** Appending a call changes the live subscriptions by that call alone. */
  lemma LiveSnoc(calls: seq<HostCall>, c: HostCall)
    ensures c.Listened? ==> Live(calls + [c]) == Live(calls) + {c.handle}
    ensures c.Unlistened? ==> Live(calls + [c]) == Live(calls) - {c.handle}
  {
    assert (calls + [c])[..|calls + [c]| - 1] == calls;
  }

  lemma ListenKeepsTracked(l: Listener, event: string, handler: Callback)
    requires Tracked(l) && Distinct(l)
    ensures Tracked(OnListen(l, ListenContent(event, Listen(handler))))
    ensures Distinct(OnListen(l, ListenContent(event, Listen(handler))))
  {
    LiveSnoc(l.calls, Listened(event, handler, l.next));
  }

  lemma UnlistenKeepsTracked(l: Listener, event: string)
    requires Tracked(l) && Distinct(l)
    ensures Tracked(OnListen(l, ListenContent(event, Unlisten)))
    ensures Distinct(OnListen(l, ListenContent(event, Unlisten)))
  {
    if event in l.handles {
      var r := OnListen(l, ListenContent(event, Unlisten));
      LiveSnoc(l.calls, Unlistened(l.handles[event]));
      forall e | e in r.handles ensures r.handles[e] in Live(r.calls) {
        assert l.handles[e] != l.handles[event];
      }
    }
  }

  lemma OnListenKeepsTracked(l: Listener, msg: ListenContent)
    requires Tracked(l) && Distinct(l)
    ensures Tracked(OnListen(l, msg)) && Distinct(OnListen(l, msg))
  {
    match msg.contentType
    case Listen(handler) => ListenKeepsTracked(l, msg.event, handler);
    case Unlisten => UnlistenKeepsTracked(l, msg.event);
  }

  /** Every state the listen loop reaches from a fresh start keeps the handle table honest. */
  lemma {:induction false} ListenLoopKeepsTracked(l: Listener, msgs: seq<ListenContent>)
    requires Tracked(l) && Distinct(l)
    ensures Tracked(ListenLoop(l, msgs)) && Distinct(ListenLoop(l, msgs))
    decreases |msgs|
  {
    if msgs != [] {
      OnListenKeepsTracked(l, msgs[0]);
      ListenLoopKeepsTracked(OnListen(l, msgs[0]), msgs[1..]);
    }
  }

  /**
   Listening to the same event twice and then unlistening it leaves the
   first host subscription live with no handle left to remove it: its
   handler keeps firing.
   */
  lemma RelistenLeaksFirstSubscription(event: string, first: Callback, second: Callback)
    ensures var l := ListenLoop(NewListener(), [ListenContent(event, Listen(first)),
                                               ListenContent(event, Listen(second)),
                                               ListenContent(event, Unlisten)]);
            && 0 in Live(l.calls) && 1 !in Live(l.calls)
            && event !in l.handles
            && l.calls == [Listened(event, first, 0), Listened(event, second, 1), Unlistened(1)]
  {
    var msgs := [ListenContent(event, Listen(first)), ListenContent(event, Listen(second)),
                 ListenContent(event, Unlisten)];
    var l1 := OnListen(NewListener(), msgs[0]);
    var l2 := OnListen(l1, msgs[1]);
    var l3 := OnListen(l2, msgs[2]);
    assert msgs[1..][0] == msgs[1] && msgs[1..][1..][0] == msgs[2] && msgs[1..][1..][1..] == [];
    assert ListenLoop(l2, msgs[1..][1..]) == ListenLoop(l3, []) == l3;
    assert ListenLoop(NewListener(), msgs) == ListenLoop(l1, msgs[1..]) == ListenLoop(l2, msgs[1..][1..]);
    LiveSnoc([], Listened(event, first, 0));
    LiveSnoc(l1.calls, Listened(event, second, 1));
    LiveSnoc(l2.calls, Unlistened(1));
  }
}

=== FILE: db.dfy ===
/**
 The embedded key-value store (sled) as the host uses it: a durable map from
 extension id to record text, iterated in key order.

 The store is its entries in iteration order: strictly increasing keys under
 `Below`, the code-point order on strings, which for UTF-8 keys is the byte
 order sled iterates in. `ToMap` is the map the entries stand for.
 */
module Db {
  import opened Results

  type Entries = seq<(string, string)>

  /** Lexicographic order on code points. */
  predicate Below(a: string, b: string)
    decreases |a|
  {
    if a == [] then b != []
    else if b == [] then false
    else if a[0] != b[0] then a[0] < b[0]
    else Below(a[1..], b[1..])
  }

  lemma {:induction false} BelowIrreflexive(a: string)
    ensures !Below(a, a)
  {
    if a != [] {
      BelowIrreflexive(a[1..]);
    }
  }

  lemma {:induction false} BelowTransitive(a: string, b: string, c: string)
    requires Below(a, b) && Below(b, c)
    ensures Below(a, c)
    decreases |a|
  {
    if a != [] && a[0] == b[0] && b[0] == c[0] {
      BelowTransitive(a[1..], b[1..], c[1..]);
    }
  }

  lemma {:induction false} BelowTotal(a: string, b: string)
    ensures a == b || Below(a, b) || Below(b, a)
    decreases |a|
  {
    if a != [] && b != [] && a[0] == b[0] {
      BelowTotal(a[1..], b[1..]);
      if a[1..] == b[1..] {
        assert a == [a[0]] + a[1..] && b == [b[0]] + b[1..];
      }
    }
  }

  /** Iteration order: keys strictly increasing, hence distinct. */
  ghost predicate Sorted(e: Entries)
  {
    forall i, j :: 0 <= i < j < |e| ==> Below(e[i].0, e[j].0)
  }

  /** The map the entries stand for. */
  function ToMap(e: Entries): (r: map<string, string>)
  {
    if e == [] then map[] else ToMap(e[1..])[e[0].0 := e[0].1]
  }

  /** The keys of the map are exactly the keys of the entries. */
  lemma {:induction false} ToMapKeys(e: Entries, x: string)
    ensures x in ToMap(e) <==> exists i :: 0 <= i < |e| && e[i].0 == x
  {
    if e != [] {
      ToMapKeys(e[1..], x);
      if x in ToMap(e[1..]) {
        var i :| 0 <= i < |e[1..]| && e[1..][i].0 == x;
        assert e[i + 1].0 == x;
      }
      if exists i :: 0 <= i < |e| && e[i].0 == x {
        var i :| 0 <= i < |e| && e[i].0 == x;
        if i > 0 {
          assert e[1..][i - 1].0 == x;
        }
      }
    }
  }

  /** In sorted entries the first key is absent from the rest. */
  lemma HeadNotInTail(e: Entries)
    requires e != [] && Sorted(e)
    ensures e[0].0 !in ToMap(e[1..])
  {
    ToMapKeys(e[1..], e[0].0);
    if e[0].0 in ToMap(e[1..]) {
      var i :| 0 <= i < |e[1..]| && e[1..][i].0 == e[0].0;
      assert Below(e[0].0, e[i + 1].0);
      BelowIrreflexive(e[0].0);
    }
  }

  /** Every key of `e` lies above `lo`. */
  ghost predicate Above(lo: string, e: Entries)
  {
    forall j :: 0 <= j < |e| ==> Below(lo, e[j].0)
  }

  lemma ConsSorted(x: (string, string), e: Entries)
    requires Sorted(e) && Above(x.0, e)
    ensures Sorted([x] + e)
  {
    var r := [x] + e;
    forall i, j | 0 <= i < j < |r|
      ensures Below(r[i].0, r[j].0)
    {
      if i > 0 {
        assert r[i] == e[i - 1] && r[j] == e[j - 1];
      } else {
        assert r[j] == e[j - 1];
      }
    }
  }

  lemma AboveTransitive(a: string, e: Entries)
    requires Sorted(e) && e != [] && Below(a, e[0].0)
    ensures Above(a, e)
  {
    forall j | 0 <= j < |e|
      ensures Below(a, e[j].0)
    {
      if j > 0 {
        BelowTransitive(a, e[0].0, e[j].0);
      }
    }
  }

  /** Entries drawn from `e`, plus possibly `x`, stay above a bound of both. */
  lemma AboveDrawnFrom(lo: string, e: Entries, r: Entries, x: (string, string))
    requires Above(lo, e) && Below(lo, x.0)
    requires forall i :: 0 <= i < |r| ==> r[i] == x || r[i] in e
    ensures Above(lo, r)
  {
    forall i | 0 <= i < |r|
      ensures Below(lo, r[i].0)
    {
      if r[i] != x {
        var m :| 0 <= m < |e| && e[m] == r[i];
      }
    }
  }

  /** Entries drawn from `e` stay above a bound of `e`. */
  lemma AboveSubset(lo: string, e: Entries, r: Entries)
    requires Above(lo, e)
    requires forall i :: 0 <= i < |r| ==> r[i] in e
    ensures Above(lo, r)
  {
    forall i | 0 <= i < |r|
      ensures Below(lo, r[i].0)
    {
      var m :| 0 <= m < |e| && e[m] == r[i];
    }
  }

  lemma SortedTail(e: Entries)
    requires Sorted(e) && e != []
    ensures Sorted(e[1..]) && Above(e[0].0, e[1..])
  {
    forall j | 0 <= j < |e[1..]|
      ensures Below(e[0].0, e[1..][j].0)
    {
      assert e[1..][j] == e[j + 1];
    }
  }

  /** `insert`: the key now maps to the value; iteration order is kept. */
  function Insert(e: Entries, key: string, value: string): (r: Entries)
    requires Sorted(e)
    ensures Sorted(r)
    ensures ToMap(r) == ToMap(e)[key := value]
    ensures forall i :: 0 <= i < |r| ==> r[i] == (key, value) || r[i] in e
  {
    if e == [] then [(key, value)]
    else if e[0].0 == key then
      SortedTail(e);
      ConsSorted((key, value), e[1..]);
      [(key, value)] + e[1..]
    else if Below(key, e[0].0) then
      AboveTransitive(key, e);
      ConsSorted((key, value), e);
      [(key, value)] + e
    else
      SortedTail(e);
      var t := Insert(e[1..], key, value);
      BelowTotal(key, e[0].0);
      AboveDrawnFrom(e[0].0, e[1..], t, (key, value));
      ConsSorted(e[0], t);
      var r := [e[0]] + t;
      assert ToMap(r) == ToMap(t)[e[0].0 := e[0].1];
      assert forall i :: 0 < i < |r| ==> r[i] == t[i - 1];
      r
  }

  /** `remove`: the key is gone and its previous value, if any, is returned. */
  function Remove(e: Entries, key: string): (r: (Entries, Option<string>))
    requires Sorted(e)
    ensures Sorted(r.0)
    ensures ToMap(r.0) == ToMap(e) - {key}
    ensures key in ToMap(e) <==> r.1.Some?
    ensures r.1.Some? ==> r.1.value == ToMap(e)[key]
    ensures r.1.None? ==> r.0 == e
    ensures forall i :: 0 <= i < |r.0| ==> r.0[i] in e
  {
    if e == [] then ([], None)
    else if e[0].0 == key then
      HeadNotInTail(e);
      SortedTail(e);
      assert forall i :: 0 <= i < |e[1..]| ==> e[1..][i] == e[i + 1];
      (e[1..], Some(e[0].1))
    else
      SortedTail(e);
      var (t, prev) := Remove(e[1..], key);
      AboveSubset(e[0].0, e[1..], t);
      ConsSorted(e[0], t);
      var r := [e[0]] + t;
      assert forall i :: 0 < i < |r| ==> r[i] == t[i - 1];
      assert prev.None? ==> r == [e[0]] + e[1..] == e;
      (r, prev)
  }
}

=== FILE: extension_error.dfy ===
/**
 `CustomError` of the starry crate: the four error kinds the extension host
 reports, the `From` conversions that the `?` operator applies, and `Display`.

 The foreign error types are reduced to the text each renders as.
 */
module ExtensionError {
  import opened Results
  import opened Interface

  /** `dynamic_reload::Error`: a library that failed to load, or another loader failure. */
  datatype ReloadError = Load(message: string) | OtherReload(message: string)

  /** `serde_json::Error` and `std::io::Error`, by their rendering. */
  datatype JsonError = JsonError(message: string)
  datatype IoError = IoError(message: string)

  /** `tauri::Error`: the JSON and io variants wrap the foreign error; the rest is opaque. */
  datatype TauriError = TauriJson(json: JsonError) | TauriIo(io: IoError) | TauriOther(message: string)

  datatype CustomError =
    | EmitSendError(send: SendError<EmitContent>)
    | LibLoadError(reload: ReloadError)
    | TauriError(tauri: TauriError)
    | ExtRemoveError(message: string)

  type Res<T> = Result<T, CustomError>

  /** What tokio's `SendError` prints, whatever message it holds. */
  const ChannelClosed: string := "channel closed"

  function FromSendError(s: SendError<EmitContent>): (r: CustomError)
    ensures r.EmitSendError? && r.send.unsent == s.unsent
  {
    EmitSendError(s)
  }

  function FromReloadError(e: ReloadError): (r: CustomError)
    ensures r.LibLoadError? && r.reload == e
  {
    LibLoadError(e)
  }

  function FromTauriError(e: TauriError): (r: CustomError)
    ensures r.TauriError? && r.tauri == e
  {
    TauriError(e)
  }

  /** A JSON error has no variant of its own: it travels as a tauri error. */
  function FromJsonError(e: JsonError): (r: CustomError)
    ensures r.TauriError? && r.tauri.TauriJson? && r.tauri.json == e
    ensures !r.EmitSendError? && !r.LibLoadError? && !r.ExtRemoveError?
  {
    TauriError(TauriJson(e))
  }

  /** An io error has no variant of its own either. */
  function FromIoError(e: IoError): (r: CustomError)
    ensures r.TauriError? && r.tauri.TauriIo? && r.tauri.io == e
    ensures !r.EmitSendError? && !r.LibLoadError? && !r.ExtRemoveError?
  {
    TauriError(TauriIo(e))
  }

  /** Any `String` converts to a removal error carrying the same text. */
  function FromString(s: string): (r: CustomError)
    ensures r.ExtRemoveError? && Display(r) == s
  {
    ExtRemoveError(s)
  }

  /** The rendering of a wrapped tauri error: the wrapped foreign error's own text. */
  function TauriText(e: TauriError): (r: string)
  {
    match e
    case TauriJson(j) => j.message
    case TauriIo(i) => i.message
    case TauriOther(m) => m
  }

  /** `Display`: every variant prints its wrapped value and nothing else. */
  function Display(e: CustomError): (r: string)
    ensures e.EmitSendError? ==> r == ChannelClosed
    ensures e.LibLoadError? ==> r == e.reload.message
    ensures e.TauriError? ==> r == TauriText(e.tauri)
    ensures e.ExtRemoveError? ==> r == e.message
  {
    match e
    case EmitSendError(_) => ChannelClosed
    case LibLoadError(l) => l.message
    case TauriError(t) => TauriText(t)
    case ExtRemoveError(m) => m
  }
}

=== FILE: extension_store.dfy ===
/**
 The live-instance registry of the starry crate (`Extensions`): a map from
 extension id to the running instance, sharing the emit channel with the
 extensions it loads.
 */
module ExtensionStore {
  import opened Results
  import opened Interface
  import opened ExtensionError
  import Json

  /** The request context a notification is addressed to. */
  datatype Context = Context(id: string)

  /** `Context::default()`: the context of host-initiated work. */
  function DefaultContext(): (c: Context)
    ensures c.id == ""
  {
    Context("")
  }

  type Log = Channel<EmitContent>

  datatype Extensions = Extensions(running: map<string, Instance>)

  /** What an operation leaves behind: the registry, the channel, and its return value. */
  datatype Step<T> = Step(store: Extensions, log: Log, result: Res<T>)

  const LoadedEvent: string := "loaded_extension"
  const UnloadedEvent: string := "unloaded_extension"

  /** `Extensions::new`: nothing is running yet. */
  function New(): (r: Extensions)
    ensures forall id :: id !in r.running
  {
    Extensions(map[])
  }

  /** `get_service`: call the library's `new`, or report the missing symbol as a load error. */
  function GetService(lib: Lib): (r: Res<Instance>)
    ensures r.Ok? <==> lib.newSymbol.Found?
    ensures r.Ok? ==> r.value == lib.newSymbol.instance
    ensures r.Err? ==> r.error.LibLoadError? && r.error.reload == Load(lib.newSymbol.reason)
  {
    match lib.newSymbol
    case Found(i) => Ok(i)
    case Missing(why) => Err(FromReloadError(Load(why)))
  }

  /** The `loaded_extension` notification for an instance, addressed to `ctx`. */
  function LoadedNotice(ctx: Context, i: Instance): (c: EmitContent)
    ensures c.id == ctx.id && c.event == LoadedEvent
    ensures Json.ParseEntry(c.payload) == Some((i.id, i.info))
  {
    Json.ObjectTextParses(i.id, i.info);
    EmitContent(ctx.id, LoadedEvent, Json.ObjectText(i.id, i.info))
  }

  /** The `unloaded_extension` notification for an id, addressed to `ctx`. */
  function UnloadedNotice(ctx: Context, id: string): (c: EmitContent)
    ensures c.id == ctx.id && c.event == UnloadedEvent && c.payload == id
  {
    EmitContent(ctx.id, UnloadedEvent, id)
  }

  /**
   `load_extension`: build the instance, run its `load` hook, announce it,
   then record it under its id (replacing, without unloading, any instance
   already there). A failed announcement returns before the instance is
   recorded, although its hook has run.
   */
  function LoadExtension(s: Extensions, log: Log, lib: Lib, ctx: Context): (r: Step<(string, string)>)
    ensures lib.newSymbol.Missing? ==>
      r.store == s && r.log == log && r.result.Err? && r.result.error.LibLoadError?
    ensures lib.newSymbol.Found? ==>
      var i := lib.newSymbol.instance;
      && r.log.receiverAlive == log.receiverAlive
      && (log.receiverAlive ==>
            && r.result == Ok((i.id, i.info))
            && r.store.running == s.running[i.id := i]
            && r.log.actions == log.actions + [LoadHook(i), Sent(LoadedNotice(ctx, i))])
      && (!log.receiverAlive ==>
            && r.store == s
            && r.result == Err(EmitSendError(SendError(LoadedNotice(ctx, i))))
            && r.log.actions == log.actions + [LoadHook(i)])
  {
    match GetService(lib)
    case Err(e) => Step(s, log, Err(e))
    case Ok(i) =>
      var hooked := Call(log, LoadHook(i));
      var (sent, ok) := Send(hooked, LoadedNotice(ctx, i));
      if ok.Err? then Step(s, sent, Err(FromSendError(ok.error)))
      else Step(Extensions(s.running[i.id := i]), sent, Ok((i.id, i.info)))
  }

  /**
   `unload_extension_by_id`: if the id is running, drop it, run its `unload`
   hook and announce the removal; an absent id changes nothing.
   */
  function UnloadExtensionById(s: Extensions, log: Log, id: string, ctx: Context): (r: Step<()>)
    ensures id !in s.running ==> r == Step(s, log, Ok(()))
    ensures id in s.running ==>
      && r.store.running == s.running - {id}
      && r.log.receiverAlive == log.receiverAlive
      && (r.result.Ok? <==> log.receiverAlive)
      && (log.receiverAlive ==>
            r.log.actions == log.actions + [UnloadHook(s.running[id]), Sent(UnloadedNotice(ctx, id))])
      && (!log.receiverAlive ==>
            && r.log.actions == log.actions + [UnloadHook(s.running[id])]
            && r.result.error.EmitSendError?)
  {
    if id in s.running then
      var i := s.running[id];
      var hooked := Call(log, UnloadHook(i));
      var (sent, ok) := Send(hooked, UnloadedNotice(ctx, id));
      var store := Extensions(s.running - {id});
      if ok.Err? then Step(store, sent, Err(FromSendError(ok.error)))
      else Step(store, sent, Ok(()))
    else
      Step(s, log, Ok(()))
  }

  /**
   `unload_extension`: ask a fresh instance of the library for its id, unload
   the running instance with that id and return the id.
   */
  function UnloadExtension(s: Extensions, log: Log, lib: Lib, ctx: Context): (r: Step<string>)
    ensures lib.newSymbol.Missing? ==>
      r.store == s && r.log == log && r.result.Err? && r.result.error.LibLoadError?
    ensures lib.newSymbol.Missing? ==> r.result == Err(LibLoadError(Load(lib.newSymbol.reason)))
    ensures lib.newSymbol.Found? ==>
      var id := lib.newSymbol.instance.id;
      var u := UnloadExtensionById(s, log, id, ctx);
      && r.store == u.store && r.log == u.log
      && (r.result.Ok? <==> u.result.Ok?)
      && (r.result.Ok? ==> r.result.value == id)
      && (r.result.Err? ==> r.result.error == u.result.error)
  {
    match GetService(lib)
    case Err(e) => Step(s, log, Err(e))
    case Ok(i) =>
      var u := UnloadExtensionById(s, log, i.id, ctx);
      if u.result.Err? then Step(u.store, u.log, Err(u.result.error))
      else Step(u.store, u.log, Ok(i.id))
  }

  /** Unloading by id twice is the same as unloading once. */
  lemma UnloadByIdIdempotent(s: Extensions, log: Log, id: string, ctx: Context)
    ensures var once := UnloadExtensionById(s, log, id, ctx);
            UnloadExtensionById(once.store, once.log, id, ctx) == Step(once.store, once.log, Ok(()))
  {
  }

  /** Loading an extension that is not running and then unloading it restores the registry. */
  lemma LoadThenUnloadRestores(s: Extensions, log: Log, lib: Lib, ctx: Context)
    requires lib.newSymbol.Found? && lib.newSymbol.instance.id !in s.running
    requires log.receiverAlive
    ensures var i := lib.newSymbol.instance;
            var l := LoadExtension(s, log, lib, ctx);
            var u := UnloadExtensionById(l.store, l.log, i.id, ctx);
            && u.store == s
            && u.result.Ok?
            && u.log.actions == log.actions
                 + [LoadHook(i), Sent(LoadedNotice(ctx, i)), UnloadHook(i), Sent(UnloadedNotice(ctx, i.id))]
  {
    var i := lib.newSymbol.instance;
    assert s.running[i.id := i] - {i.id} == s.running;
  }

  /**
   Loading an id that is already running replaces the old instance without
   running its `unload` hook.
   */
  lemma LoadOverwritesWithoutUnload(s: Extensions, log: Log, lib: Lib, ctx: Context)
    requires lib.newSymbol.Found? && lib.newSymbol.instance.id in s.running
    requires log.receiverAlive
    ensures var i := lib.newSymbol.instance;
            var r := LoadExtension(s, log, lib, ctx);
            && r.store.running[i.id] == i
            && |r.store.running| == |s.running|
            && forall k :: |log.actions| <= k < |r.log.actions| ==> !r.log.actions[k].UnloadHook?
  {
  }
}

=== FILE: interface.dfy ===
/**
 The shapes shared by host and extension code: the messages extensions send,
 the instance record a library's `new` symbol produces, and the emit channel.

 An instance is reduced to what the host can observe of it: its `id()` and
 `info()`. Its `load` and `unload` hooks are foreign code; calling one is
 recorded as an action on the channel's trace, in call order, interleaved with
 the messages sent on the channel.
 */
module Interface {
  import opened Results

  /** `EmitContent`: the request-context id, the event name and the payload. */
  datatype EmitContent = EmitContent(id: string, event: string, payload: string)

  /** A host callback handed over by an extension; opaque to the host code. */
  datatype Callback = Callback(tag: nat)

  datatype ListenType = Listen(handler: Callback) | Unlisten

  datatype ListenContent = ListenContent(event: string, contentType: ListenType)

  /** What a library's factory produces: an extension instance. */
  datatype Instance = Instance(id: string, info: string)

  /** Looking up the `new` symbol: found (and called), or missing with the loader's reason. */
  datatype Lookup = Found(instance: Instance) | Missing(reason: string)

  /** An opened library: its file and what looking up `new` in it yields. */
  datatype Lib = Lib(file: string, newSymbol: Lookup)

  /** One observable step: a lifecycle hook called, or a message sent. */
  datatype Action<C> = LoadHook(instance: Instance) | UnloadHook(instance: Instance) | Sent(content: C)

  /**
   The sending half of an unbounded channel, as its history: every action so
   far, and whether the receiving half is still alive (a send to a dropped
   receiver fails and hands the message back).
   */
  datatype Channel<C> = Channel(actions: seq<Action<C>>, receiverAlive: bool)

  /** tokio's `SendError<T>`: the message that could not be delivered. */
  datatype SendError<C> = SendError(unsent: C)

  /** Records that a lifecycle hook was called. */
  function Call<C>(ch: Channel<C>, hook: Action<C>): (r: Channel<C>)
    requires !hook.Sent?
    ensures r.actions == ch.actions + [hook]
    ensures r.receiverAlive == ch.receiverAlive
  {
    Channel(ch.actions + [hook], ch.receiverAlive)
  }

  /** `send`: delivered while the receiver lives, otherwise handed back unsent. */
  function Send<C>(ch: Channel<C>, c: C): (r: (Channel<C>, Result<(), SendError<C>>))
    ensures r.1.Ok? <==> ch.receiverAlive
    ensures r.1.Ok? ==> r.0.actions == ch.actions + [Sent(c)]
    ensures r.1.Err? ==> r.0 == ch && r.1.error.unsent == c
    ensures r.0.receiverAlive == ch.receiverAlive
  {
    if ch.receiverAlive then (Channel(ch.actions + [Sent(c)], true), Ok(()))
    else (ch, Err(SendError(c)))
  }
}

=== FILE: json.dfy ===
/**
 The part of serde_json the host relies on.

 `serde_json::to_string(&json!({ key: value }))` with two strings is modelled
 exactly: compact output, and serde_json's escape table (quote, backslash,
 the five short control escapes, `\u00XX` with lower-case hex for the other
 control characters, everything else verbatim). `ReadString` and `ParseEntry`
 are an independent reader for that text, used to state what a payload means.

 General parsing and rendering of the `info` records are foreign: `Serde`
 carries them as two functions over a small `Value` model.
 */
module Json {
  import opened Results
  import opened ExtensionError

  /** Lower-case hex digit, as serde_json writes it. */
  function Hex(n: int): (r: char)
    requires 0 <= n < 16
  {
    "0123456789abcdef"[n]
  }

  /** How serde_json writes one character inside a string literal. */
  function EscapeChar(c: char): (r: string)
    ensures 1 <= |r| <= 6
    ensures |r| == 1 <==> Plain(c)
    ensures |r| == 1 ==> r == [c]
    ensures |r| > 1 ==> r[0] == '\\' && forall k :: 1 < k < |r| ==> r[k] != '"'
  {
    if c == '"' then ['\\', '"']
    else if c == '\\' then ['\\', '\\']
    else if c as int == 0x08 then ['\\', 'b']
    else if c == '\t' then ['\\', 't']
    else if c == '\n' then ['\\', 'n']
    else if c as int == 0x0C then ['\\', 'f']
    else if c == '\r' then ['\\', 'r']
    else if c as int < 0x20 then ['\\', 'u', '0', '0', Hex(c as int / 16), Hex(c as int % 16)]
    else [c]
  }

  /**
   How serde_json writes a string's characters: never shorter, never a raw
   control character, and every quote preceded by a backslash.
   */
  function Escape(s: string): (r: string)
    ensures |s| <= |r| <= 6 * |s|
    ensures forall k :: 0 <= k < |r| ==> r[k] as int >= 0x20
    ensures forall k :: 0 <= k < |r| && r[k] == '"' ==> k > 0 && r[k - 1] == '\\'
  {
    if s == [] then [] else EscapeChar(s[0]) + Escape(s[1..])
  }

  /** A JSON string literal for `s`. */
  function Quote(s: string): (r: string)
  {
    "\"" + Escape(s) + "\""
  }

  /** The text of the one-key object `{key: value}` with a string value. */
  function ObjectText(key: string, value: string): (r: string)
  {
    "{" + Quote(key) + ":" + Quote(value) + "}"
  }

  // ---------------------------------------------------------------------------
  // Reading the text back

  function HexValue(c: char): (r: Option<int>)
    ensures r.Some? ==> 0 <= r.value < 16
  {
    if '0' <= c <= '9' then Some(c as int - '0' as int)
    else if 'a' <= c <= 'f' then Some(c as int - 'a' as int + 10)
    else if 'A' <= c <= 'F' then Some(c as int - 'A' as int + 10)
    else None
  }

  /**
   Decodes the escape sequence that follows a backslash: the character it
   denotes and how many characters it spans. A `\u` escape naming a surrogate
   is refused.
   */
  function Unescape(t: string): (r: Option<(char, nat)>)
    ensures r.Some? ==> 1 <= r.value.1 <= |t|
  {
    if t == [] then None
    else if t[0] == '"' then Some(('"', 1))
    else if t[0] == '\\' then Some(('\\', 1))
    else if t[0] == '/' then Some(('/', 1))
    else if t[0] == 'b' then Some((8 as char, 1))
    else if t[0] == 'f' then Some((12 as char, 1))
    else if t[0] == 'n' then Some(('\n', 1))
    else if t[0] == 'r' then Some(('\r', 1))
    else if t[0] == 't' then Some(('\t', 1))
    else if t[0] == 'u' && |t| >= 5 then
      match (HexValue(t[1]), HexValue(t[2]), HexValue(t[3]), HexValue(t[4]))
      case (Some(a), Some(b), Some(c), Some(d)) =>
        var code := ((a * 16 + b) * 16 + c) * 16 + d;
        if 0xD800 <= code <= 0xDFFF then None else Some((code as char, 5))
      case _ => None
    else None
  }

  /**
   Reads the body of a string literal whose opening quote is already consumed:
   the decoded string and the text after the closing quote. Raw control
   characters are refused, as JSON requires.
   */
  function ReadString(t: string): (r: Option<(string, string)>)
    ensures r.Some? ==> |r.value.1| < |t|
    decreases |t|
  {
    if t == [] then None
    else if t[0] == '"' then Some(([], t[1..]))
    else if t[0] == '\\' then
      match Unescape(t[1..])
      case None => None
      case Some((c, n)) =>
        match ReadString(t[1 + n..])
        case None => None
        case Some((s, rest)) => Some(([c] + s, rest))
    else if t[0] as int < 0x20 then None
    else
      match ReadString(t[1..])
      case None => None
      case Some((s, rest)) => Some(([t[0]] + s, rest))
  }

  /** Reads a one-key object whose value is a string: `{"key":"value"}`, nothing around it. */
  function ParseEntry(t: string): (r: Option<(string, string)>)
  {
    if |t| < 2 || t[..2] != "{\"" then None
    else
      match ReadString(t[2..])
      case None => None
      case Some((k, r1)) => ParseValue(k, r1)
  }

  /** After the key `k`: reads `:"value"}` and nothing more. */
  function ParseValue(k: string, r1: string): (r: Option<(string, string)>)
    ensures r.Some? ==> r.value.0 == k
  {
    if |r1| < 2 || r1[..2] != ":\"" then None
    else
      match ReadString(r1[2..])
      case None => None
      case Some((v, r2)) => if r2 == "}" then Some((k, v)) else None
  }

  lemma HexRoundTrip(n: int)
    requires 0 <= n < 16
    ensures HexValue(Hex(n)) == Some(n)
  {
  }

  /** A backslash followed by a recognised escape reads as the escaped character. */
  lemma ReadBackslash(t: string, c: char, n: nat)
    requires |t| > 0 && t[0] == '\\' && Unescape(t[1..]) == Some((c, n))
    requires ReadString(t[1 + n..]).Some?
    ensures ReadString(t) == Some(([c] + ReadString(t[1 + n..]).value.0, ReadString(t[1 + n..]).value.1))
  {
  }

  /** A verbatim character reads as itself. */
  lemma ReadVerbatim(t: string)
    requires |t| > 0 && t[0] != '"' && t[0] != '\\' && t[0] as int >= 0x20
    requires ReadString(t[1..]).Some?
    ensures ReadString(t) == Some(([t[0]] + ReadString(t[1..]).value.0, ReadString(t[1..]).value.1))
  {
  }

  /** The escape serde_json writes for a control character without a short form. */
  lemma UnescapeHex(c: char, tail: string)
    requires c as int < 0x20
    ensures Unescape(['u', '0', '0', Hex(c as int / 16), Hex(c as int % 16)] + tail) == Some((c, 5))
  {
    var hi, lo := c as int / 16, c as int % 16;
    HexRoundTrip(hi);
    HexRoundTrip(lo);
    HexRoundTrip(0);
    var u := ['u', '0', '0', Hex(hi), Hex(lo)] + tail;
    assert u[0] == 'u' && u[1] == '0' && u[2] == '0' && u[3] == Hex(hi) && u[4] == Hex(lo);
    assert ((0 * 16 + 0) * 16 + hi) * 16 + lo == c as int;
  }

  /** One escaped character is read back as itself, and reading resumes right after it. */
  lemma ReadEscapedChar(c: char, tail: string)
    requires ReadString(tail).Some?
    ensures ReadString(EscapeChar(c) + tail)
         == Some(([c] + ReadString(tail).value.0, ReadString(tail).value.1))
  {
    var e := EscapeChar(c);
    var t := e + tail;
    if c == '"' || c == '\\' || c as int == 0x08 || c == '\t' || c == '\n' || c as int == 0x0C || c == '\r' {
      assert |e| == 2 && e[0] == '\\';
      assert t[1..] == [e[1]] + tail;
      assert Unescape(t[1..]) == Some((c, 1));
      assert t[2..] == tail;
      ReadBackslash(t, c, 1);
    } else if c as int < 0x20 {
      assert e == ['\\'] + ['u', '0', '0', Hex(c as int / 16), Hex(c as int % 16)];
      assert t[1..] == ['u', '0', '0', Hex(c as int / 16), Hex(c as int % 16)] + tail;
      UnescapeHex(c, tail);
      assert t[6..] == tail;
      ReadBackslash(t, c, 5);
    } else {
      assert e == [c];
      assert t[0] == c && t[1..] == tail;
      ReadVerbatim(t);
    }
  }

  /** A closing quote ends the literal. */
  lemma ReadClosingQuote(rest: string)
    ensures ReadString("\"" + rest) == Some(([], rest))
  {
    var t := "\"" + rest;
    assert t[0] == '"' && t[1..] == rest;
  }

  /** The reader inverts the escaping: `Escape(s)` followed by a closing quote reads as `s`. */
  lemma {:induction false} ReadEscaped(s: string, rest: string)
    ensures ReadString(Escape(s) + "\"" + rest) == Some((s, rest))
  {
    if s == [] {
      assert Escape(s) + "\"" + rest == "\"" + rest;
      ReadClosingQuote(rest);
    } else {
      var tail := Escape(s[1..]) + "\"" + rest;
      ReadEscaped(s[1..], rest);
      assert Escape(s) == EscapeChar(s[0]) + Escape(s[1..]);
      assert Escape(s) + "\"" + rest == EscapeChar(s[0]) + tail;
      ReadEscapedChar(s[0], tail);
      assert [s[0]] + s[1..] == s;
    }
  }

  /** The one-key object text names exactly its key and its value. */
  lemma ObjectTextParses(key: string, value: string)
    ensures ParseEntry(ObjectText(key, value)) == Some((key, value))
  {
    var t := ObjectText(key, value);
    var r1 := ":\"" + (Escape(value) + "\"" + "}");
    ObjectTextSplit(Escape(key), Escape(value));
    assert t[..2] == "{\"" && t[2..] == Escape(key) + "\"" + r1;
    ReadEscaped(key, r1);
    ValueTextParses(key, value);
  }

  /** The object text cut after its opening `{"` and after the key's closing quote. */
  lemma ObjectTextSplit(ek: string, ev: string)
    ensures var t := "{" + ("\"" + ek + "\"") + ":" + ("\"" + ev + "\"") + "}";
            var r1 := ":\"" + (ev + "\"" + "}");
            t[..2] == "{\"" && t[2..] == ek + "\"" + r1
  {
    var t := "{" + ("\"" + ek + "\"") + ":" + ("\"" + ev + "\"") + "}";
    assert t == "{\"" + (ek + "\"" + (":\"" + (ev + "\"" + "}")));
  }

  /** The value half of the object text reads back as the value. */
  lemma ValueTextParses(key: string, value: string)
    ensures ParseValue(key, ":\"" + (Escape(value) + "\"" + "}")) == Some((key, value))
  {
    var r1 := ":\"" + (Escape(value) + "\"" + "}");
    assert r1[..2] == ":\"";
    assert r1[2..] == Escape(value) + "\"" + "}";
    ReadEscaped(value, "}");
  }

  /** Different keys or values never produce the same payload text. */
  lemma ObjectTextInjective(k1: string, v1: string, k2: string, v2: string)
    requires ObjectText(k1, v1) == ObjectText(k2, v2)
    ensures k1 == k2 && v1 == v2
  {
    ObjectTextParses(k1, v1);
    ObjectTextParses(k2, v2);
  }

  /** A character serde_json writes verbatim. */
  predicate Plain(c: char)
  {
    c != '"' && c != '\\' && c as int >= 0x20
  }

  /** A string with only verbatim characters is its own escaping. */
  lemma {:induction false} EscapePlain(s: string)
    requires forall i :: 0 <= i < |s| ==> Plain(s[i])
    ensures Escape(s) == s
  {
    if s != [] {
      EscapePlain(s[1..]);
      assert [s[0]] + s[1..] == s;
    }
  }

  // ---------------------------------------------------------------------------
  // Records: a JSON value model and the foreign parser/renderer

  /** A JSON value, as far as the host looks into it; `Other` is a number, a boolean or an array. */
  datatype Value = Null | Str(s: string) | Object(fields: map<string, Value>) | Other(text: string)

  /** `v[key]` (serde_json's `Index`): the field, or `Null` when absent or `v` is no object. */
  function Field(v: Value, key: string): (r: Value)
    ensures v.Object? && key in v.fields ==> r == v.fields[key]
    ensures !(v.Object? && key in v.fields) ==> r == Null
  {
    if v.Object? && key in v.fields then v.fields[key] else Null
  }

  /**
   `v[key] = x` (serde_json's `IndexMut`): a `Null` becomes an object first;
   any other non-object panics, which is `None` here.
   */
  function SetField(v: Value, key: string, x: Value): (r: Option<Value>)
    ensures r.Some? <==> v.Null? || v.Object?
    ensures r.Some? ==> r.value.Object? && Field(r.value, key) == x
    ensures r.Some? ==> forall k :: k != key ==> Field(r.value, k) == Field(v, k)
  {
    match v
    case Null => Some(Object(map[key := x]))
    case Object(fs) => Some(Object(fs[key := x]))
    case _ => None
  }

  /** `as_str()`. */
  function AsStr(v: Value): (r: Option<string>)
    ensures r.Some? <==> v.Str?
    ensures r.Some? ==> r.value == v.s
  {
    if v.Str? then Some(v.s) else None
  }

  /** serde_json's `from_str` and `to_string` on records, left abstract. */
  datatype Serde = Serde(parse: string -> Result<Value, JsonError>, render: Value -> string)

  /** A value the parser reads back from its own rendering. */
  predicate RoundTrips(serde: Serde, v: Value)
  {
    serde.parse(serde.render(v)) == Ok(v)
  }
}

=== FILE: legacy_store.dfy ===
/**
 The older draft of the registry (`Extensions` under `src/extension_manager`):
 the same map from id to instance, but notifications carry no request context,
 use other event names and a hand-formatted payload, and every failure panics
 through `unwrap`.
 */
module LegacyExtensionStore {
  import opened Results
  import opened Interface
  import Json

  /** This draft's `EmitContent`: an event name and a payload only. */
  datatype LegacyEmit = LegacyEmit(event: string, payload: string)

  type Log = Channel<LegacyEmit>

  datatype Extensions = Extensions(running: map<string, Instance>)

  /** How a call ends: it returns a value, or an `unwrap` panics. */
  datatype Outcome<T> = Returned(value: T) | Panicked

  /** What a call leaves behind; on a panic, the state at the point of the panic. */
  datatype Step<T> = Step(store: Extensions, log: Log, outcome: Outcome<T>)

  const InstalledEvent: string := "installed_extension"
  const RemoveEvent: string := "remove_extension"

  /** `Extensions::new`: nothing is running yet. */
  function New(): (r: Extensions)
    ensures forall id :: id !in r.running
  {
    Extensions(map[])
  }

  /** `get_service`: there is no error path; a missing `new` symbol panics. */
  function GetService(lib: Lib): (r: Outcome<Instance>)
    ensures r.Panicked? <==> lib.newSymbol.Missing?
    ensures r.Returned? ==> r.value == lib.newSymbol.instance
  {
    match lib.newSymbol
    case Found(i) => Returned(i)
    case Missing(_) => Panicked
  }

  /** The payload `{"<id>":<info>}`, written by hand: the id is not escaped, the info is inlined raw. */
  function InstalledPayload(id: string, info: string): (r: string)
    ensures |r| == |id| + |info| + 5
    ensures r[..2] == "{\"" && r[|r| - 1] == '}'
    ensures r[2..2 + |id|] == id && r[2 + |id|..4 + |id|] == "\":"
    ensures r[4 + |id|..|r| - 1] == info
  {
    "{\"" + id + "\":" + info + "}"
  }

  /**
   `load_extension`: run the `load` hook, announce `installed_extension`,
   then record the instance under its id, overwriting any instance there.
   */
  function LoadExtension(s: Extensions, log: Log, lib: Lib): (r: Step<(string, string)>)
    ensures lib.newSymbol.Missing? ==> r == Step(s, log, Panicked)
    ensures lib.newSymbol.Found? ==>
      var i := lib.newSymbol.instance;
      && r.log.receiverAlive == log.receiverAlive
      && (log.receiverAlive ==>
            && r.outcome == Returned((i.id, i.info))
            && r.store.running == s.running[i.id := i]
            && r.log.actions == log.actions
                 + [LoadHook(i), Sent(LegacyEmit(InstalledEvent, InstalledPayload(i.id, i.info)))])
      && (!log.receiverAlive ==>
            r.outcome.Panicked? && r.store == s && r.log.actions == log.actions + [LoadHook(i)])
  {
    match GetService(lib)
    case Panicked => Step(s, log, Panicked)
    case Returned(i) =>
      var hooked := Call(log, LoadHook(i));
      var (sent, ok) := Send(hooked, LegacyEmit(InstalledEvent, InstalledPayload(i.id, i.info)));
      if ok.Err? then Step(s, sent, Panicked)
      else Step(Extensions(s.running[i.id := i]), sent, Returned((i.id, i.info)))
  }

  /** `unload_extension_by_id`: drop, unload and announce a running id; an absent id changes nothing. */
  function UnloadExtensionById(s: Extensions, log: Log, id: string): (r: Step<()>)
    ensures id !in s.running ==> r == Step(s, log, Returned(()))
    ensures id in s.running ==>
      && r.store.running == s.running - {id}
      && r.log.receiverAlive == log.receiverAlive
      && (r.outcome.Panicked? <==> !log.receiverAlive)
      && (log.receiverAlive ==>
            r.log.actions == log.actions + [UnloadHook(s.running[id]), Sent(LegacyEmit(RemoveEvent, id))])
      && (!log.receiverAlive ==> r.log.actions == log.actions + [UnloadHook(s.running[id])])
  {
    if id in s.running then
      var i := s.running[id];
      var hooked := Call(log, UnloadHook(i));
      var (sent, ok) := Send(hooked, LegacyEmit(RemoveEvent, id));
      var store := Extensions(s.running - {id});
      if ok.Err? then Step(store, sent, Panicked) else Step(store, sent, Returned(()))
    else
      Step(s, log, Returned(()))
  }

  /**
   `unload_extension`: unload the running instance whose id a fresh instance of the library reports.
   A library without the constructor panics; otherwise the call panics exactly when the id is
   running and the receiver is gone, and returns the id in every other case.
   */
  function UnloadExtension(s: Extensions, log: Log, lib: Lib): (r: Step<string>)
    ensures lib.newSymbol.Missing? ==> r == Step(s, log, Panicked)
    ensures lib.newSymbol.Found? ==>
      var id := lib.newSymbol.instance.id;
      && r.store.running == s.running - {id}
      && r.log.receiverAlive == log.receiverAlive
      && (r.outcome.Panicked? <==> id in s.running && !log.receiverAlive)
      && (r.outcome.Returned? ==> r.outcome.value == id)
      && (id !in s.running ==> r.log == log)
      && (id in s.running ==>
            r.log.actions == log.actions + [UnloadHook(s.running[id])]
              + (if log.receiverAlive then [Sent(LegacyEmit(RemoveEvent, id))] else []))
  {
    match GetService(lib)
    case Panicked => Step(s, log, Panicked)
    case Returned(i) =>
      var u := UnloadExtensionById(s, log, i.id);
      if u.outcome.Panicked? then Step(u.store, u.log, Panicked)
      else Step(u.store, u.log, Returned(i.id))
  }

  /** The map holds at most one instance per id: loading a running id keeps the count. */
  lemma LoadKeepsOnePerId(s: Extensions, log: Log, lib: Lib)
    requires lib.newSymbol.Found? && log.receiverAlive
    ensures var i := lib.newSymbol.instance;
            var r := LoadExtension(s, log, lib);
            && r.store.running.Keys == s.running.Keys + {i.id}
            && (i.id in s.running ==> |r.store.running| == |s.running|)
  {
  }

  /**
   When the id needs no escaping and the info is itself a JSON string
   literal, the hand-formatted payload is the one serde_json would write.
   */
  lemma PayloadMatchesSerdeForPlainIds(id: string, x: string)
    requires forall k :: 0 <= k < |id| ==> Json.Plain(id[k])
    ensures InstalledPayload(id, Json.Quote(x)) == Json.ObjectText(id, x)
  {
    Json.EscapePlain(id);
  }

  /**
   An id holding a quote breaks the hand-formatted payload. Whatever the
   info, once the part of the id before its first quote needs no escaping,
   the decoder takes that part for the whole key: the payload never reads as
   an entry for the id.
   */
  lemma PayloadBrokenByQuoteInId(before: string, after: string, info: string)
    requires forall k :: 0 <= k < |before| ==> Json.Plain(before[k])
    ensures var t := Json.ParseEntry(InstalledPayload(before + "\"" + after, info));
            t.None? || t.value.0 == before
    ensures forall v :: Json.ParseEntry(InstalledPayload(before + "\"" + after, info)) != Some((before + "\"" + after, v))
  {
    var id := before + "\"" + after;
    var t := InstalledPayload(id, info);
    var rest := after + "\":" + info + "}";
    assert t == "{\"" + (before + "\"" + rest);
    assert t[..2] == "{\"" && t[2..] == before + "\"" + rest;
    Json.EscapePlain(before);
    Json.ReadEscaped(before, rest);
    assert Json.ReadString(t[2..]) == Some((before, rest));
    assert Json.ParseEntry(t) == Json.ParseValue(before, rest);
    assert |id| > |before|;
  }
}

=== FILE: manager.dfy ===
/**
 The extension manager (`ExtensionManager` in `src/extension_manager/mod.rs`)
 and its command loop: one owner of the registry and of the persisted
 records, handling install, remove and list commands one at a time.

 Everything foreign is an input collected in `Env`: what the loader does with
 a file name, what the filesystem says about an install path, the outcome of
 deleting a backing file, and serde_json on records.
 */
module ExtensionManager {
  import opened Results
  import opened Interface
  import opened ExtensionError
  import opened ExtensionStore
  import Json
  import Db

  /** A command's payload: the request context id and the path or extension id. */
  datatype EventContent = EventContent(id: string, payload: string)

  datatype ManagerEvent =
    | InstallExtension(content: EventContent)
    | RemoveExtension(content: EventContent)
    | ListAllExtension(content: EventContent)

  /** The loader's answer for a file name: the opened library, or why it failed. */
  datatype Opened = Opened(lib: Lib) | OpenFailed(error: ReloadError)

  /** What the filesystem says about an install path. */
  datatype SourceFile = SourceFile(copyError: Option<IoError>, isFile: bool, fileName: string)

  datatype Env = Env(
    addLibrary: string -> Opened,
    source: string -> SourceFile,
    removeFile: string -> Option<IoError>,   // the outcome of deleting a path
    serde: Json.Serde)

  /** The manager's state: the registry, the persisted records, the emit channel. */
  datatype Manager = Manager(store: Extensions, db: Db.Entries, log: Log)

  /** How a call ends: it returns, or an `unwrap`/`expect` panics and stops the loop that made the call. */
  datatype Exit<T> = Returned(result: Res<T>) | Panicked

  /** The state after a call (at the point of the panic, if it panicked) and how it ended. */
  datatype Run<T> = Run(m: Manager, exit: Exit<T>)

  const FileNameKey: string := "__file_name"
  const ErrorEvent: string := "error"
  const NotAFileMessage: string := "该路径不是一个文件"

  /** The message of removing an id that was never installed. */
  function NotInstalledMessage(id: string): (r: string)
    ensures |r| == |id| + 14 && r[10..10 + |id|] == id
  {
    "没有安装 id 为 " + id + " 的拓展"
  }

  /** `new_manager_event`: `true` makes an install command, `false` a remove command. */
  function NewManagerEvent(installOrRemove: bool, id: string, payload: string): (r: ManagerEvent)
    ensures installOrRemove <==> r.InstallExtension?
    ensures !installOrRemove <==> r.RemoveExtension?
    ensures r.content.id == id && r.content.payload == payload
  {
    if installOrRemove then InstallExtension(EventContent(id, payload))
    else RemoveExtension(EventContent(id, payload))
  }

  /**
   The three host subscriptions of `start_manager`: a host event with a
   payload becomes a command. Install and remove take the host event's id as
   request context; list takes its payload as the context id.
   */
  function CommandFor(event: string, hostEventId: string, payload: Option<string>): (r: Option<ManagerEvent>)
    ensures payload.None? ==> r.None?
    ensures r.Some? ==> r.value.content.payload == payload.value
    ensures r.Some? && r.value.InstallExtension? <==> payload.Some? && event == "install_extension"
    ensures r.Some? && r.value.RemoveExtension? <==> payload.Some? && event == "remove_extension"
    ensures r.Some? && r.value.ListAllExtension? <==> payload.Some? && event == "list_all_extension"
    ensures r.Some? && !r.value.ListAllExtension? ==> r.value.content.id == hostEventId
    ensures r.Some? && r.value.ListAllExtension? ==> r.value.content.id == payload.value
  {
    match payload
    case None => None
    case Some(p) =>
      if event == "install_extension" then Some(NewManagerEvent(true, hostEventId, p))
      else if event == "remove_extension" then Some(NewManagerEvent(false, hostEventId, p))
      else if event == "list_all_extension" then Some(ListAllExtension(EventContent(p, p)))
      else None
  }

  /** `load_extension_by_file_name`: open the library through the loader and load it. */
  function LoadByFileName(m: Manager, env: Env, name: string, ctx: Context): (r: Run<(string, string)>)
    ensures r.exit.Returned? && r.m.db == m.db
    ensures env.addLibrary(name).OpenFailed? ==>
      r.m == m && r.exit.result == Err(LibLoadError(env.addLibrary(name).error))
    ensures env.addLibrary(name).Opened? ==>
      var s := LoadExtension(m.store, m.log, env.addLibrary(name).lib, ctx);
      r.m.store == s.store && r.m.log == s.log && r.exit.result == s.result
  {
    match env.addLibrary(name)
    case OpenFailed(e) => Run(m, Returned(Err(FromReloadError(e))))
    case Opened(lib) =>
      var s := LoadExtension(m.store, m.log, lib, ctx);
      Run(Manager(s.store, m.db, s.log), Returned(s.result))
  }

  // ---------------------------------------------------------------------------
  // Startup

  /** The file name a stored record names, if it parses and its `__file_name` is a string. */
  function RecordFileName(serde: Json.Serde, record: string): (r: Option<string>)
    ensures r.Some? <==> serde.parse(record).Ok? && Json.Field(serde.parse(record).value, FileNameKey).Str?
    ensures r.Some? ==> Json.Field(serde.parse(record).value, FileNameKey) == Json.Str(r.value)
  {
    match serde.parse(record)
    case Err(_) => None
    case Ok(v) => Json.AsStr(Json.Field(v, FileNameKey))
  }

  /** The file names startup reloads, in iteration order. */
  function ReplayNames(serde: Json.Serde, records: Db.Entries): (r: seq<string>)
  {
    if records == [] then []
    else
      (match RecordFileName(serde, records[0].1) case Some(n) => [n] case None => [])
      + ReplayNames(serde, records[1..])
  }

  /**
   The replay loop of `ExtensionManager::new`: every record is parsed (a
   record that does not parse panics), and each one whose `__file_name` is a
   string is loaded under the default context (a failed load panics).
   So one unparseable record, or one named file that cannot be loaded, or a
   named file while the channel is closed, is enough to panic the replay.
   */
  function Replay(m: Manager, env: Env, records: Db.Entries): (r: Run<()>)
    ensures r.m.db == m.db
    ensures r.exit.Returned? ==> r.exit.result.Ok?
    ensures (exists k :: 0 <= k < |records| && env.serde.parse(records[k].1).Err?) ==> r.exit.Panicked?
    ensures (exists k :: 0 <= k < |records| && RecordFileName(env.serde, records[k].1).Some?
               && !Loadable(env, RecordFileName(env.serde, records[k].1).value)) ==> r.exit.Panicked?
    ensures !m.log.receiverAlive ==>
      (exists k :: 0 <= k < |records| && RecordFileName(env.serde, records[k].1).Some?) ==> r.exit.Panicked?
    decreases |records|
  {
    if records == [] then Run(m, Returned(Ok(())))
    else
      match env.serde.parse(records[0].1)
      case Err(_) => Run(m, Panicked)
      case Ok(v) =>
        match Json.AsStr(Json.Field(v, FileNameKey))
        case None => Replay(m, env, records[1..])
        case Some(name) =>
          var l := LoadByFileName(m, env, name, DefaultContext());
          if l.exit.result.Err? then Run(l.m, Panicked)
          else Replay(l.m, env, records[1..])
  }

  /** `ExtensionManager::new`: an empty registry, then the replay of the persisted records. */
  function Start(db: Db.Entries, log: Log, env: Env): (r: Run<()>)
    ensures r.m.db == db
  {
    Replay(Manager(New(), db, log), env, db)
  }

  /** A file name the loader opens into a library whose `new` symbol resolves. */
  predicate Loadable(env: Env, name: string)
  {
    env.addLibrary(name).Opened? && env.addLibrary(name).lib.newSymbol.Found?
  }

  /** Every one of the file names is loadable. */
  predicate AllLoadable(env: Env, names: seq<string>)
  {
    forall k :: 0 <= k < |names| ==> Loadable(env, names[k])
  }

  /** The instance a loadable file name yields. */
  function InstanceOf(env: Env, name: string): (r: Instance)
    requires Loadable(env, name)
  {
    env.addLibrary(name).lib.newSymbol.instance
  }

  /** What loading the named files one after another does to the channel. */
  function LoadActions(env: Env, names: seq<string>, ctx: Context): (r: seq<Action<EmitContent>>)
    requires AllLoadable(env, names)
    decreases |names|
  {
    if names == [] then []
    else
      var i := InstanceOf(env, names[0]);
      [LoadHook(i), Sent(LoadedNotice(ctx, i))] + LoadActions(env, names[1..], ctx)
  }

  /** What loading the named files one after another does to the registry. */
  function LoadAll(running: map<string, Instance>, env: Env, names: seq<string>): (r: map<string, Instance>)
    requires AllLoadable(env, names)
    decreases |names|
  {
    if names == [] then running
    else
      var i := InstanceOf(env, names[0]);
      LoadAll(running[i.id := i], env, names[1..])
  }

  /** Loading a loadable file name over an open channel registers its instance and announces it. */
  lemma LoadByFileNameLoads(m: Manager, env: Env, name: string, ctx: Context)
    requires Loadable(env, name) && m.log.receiverAlive
    ensures var r := LoadByFileName(m, env, name, ctx);
            var i := InstanceOf(env, name);
            && r.exit == Returned(Ok((i.id, i.info)))
            && r.m.store.running == m.store.running[i.id := i]
            && r.m.log.actions == m.log.actions + [LoadHook(i), Sent(LoadedNotice(ctx, i))]
            && r.m.log.receiverAlive && r.m.db == m.db
  {
  }

  /** Every record of the list parses. */
  predicate AllParse(serde: Json.Serde, records: Db.Entries)
  {
    forall k :: 0 <= k < |records| ==> serde.parse(records[k].1).Ok?
  }

  lemma AllParseTail(serde: Json.Serde, records: Db.Entries)
    requires records != [] && AllParse(serde, records)
    ensures AllParse(serde, records[1..])
  {
    forall k | 0 <= k < |records[1..]| ensures serde.parse(records[1..][k].1).Ok? {
      assert records[1..][k] == records[k + 1];
    }
  }

  lemma AllLoadableTail(env: Env, names: seq<string>)
    requires names != [] && AllLoadable(env, names)
    ensures Loadable(env, names[0]) && AllLoadable(env, names[1..])
  {
    forall k | 0 <= k < |names[1..]| ensures Loadable(env, names[1..][k]) {
      assert names[1..][k] == names[k + 1];
    }
  }

  /**
   When every record parses, every named file loads and the channel is open,
   replay returns normally having loaded exactly the records with a string
   `__file_name`, in iteration order.
   */
  lemma {:induction false} ReplayLoadsNamedRecords(m: Manager, env: Env, records: Db.Entries)
    requires AllParse(env.serde, records)
    requires AllLoadable(env, ReplayNames(env.serde, records))
    requires m.log.receiverAlive
    ensures var r := Replay(m, env, records);
            var names := ReplayNames(env.serde, records);
            && r.exit == Returned(Ok(()))
            && r.m.store.running == LoadAll(m.store.running, env, names)
            && r.m.log.actions == m.log.actions + LoadActions(env, names, DefaultContext())
            && r.m.log.receiverAlive
    decreases |records|
  {
    if records != [] {
      var tail := records[1..];
      AllParseTail(env.serde, records);
      var v := env.serde.parse(records[0].1).value;
      var names := ReplayNames(env.serde, records);
      match Json.AsStr(Json.Field(v, FileNameKey))
      case None =>
        assert names == ReplayNames(env.serde, tail);
        ReplayLoadsNamedRecords(m, env, tail);
      case Some(name) =>
        assert names == [name] + ReplayNames(env.serde, tail);
        assert names[0] == name && names[1..] == ReplayNames(env.serde, tail);
        AllLoadableTail(env, names);
        ReplayUnfoldNamed(m, env, records, name);
        var l := LoadByFileName(m, env, name, DefaultContext());
        ReplayLoadsNamedRecords(l.m, env, tail);
        LoadActionsCons(m.log.actions, env, names, DefaultContext());
    }
  }

  /** Replay of a record naming a loadable file loads it and goes on with the rest. */
  lemma ReplayUnfoldNamed(m: Manager, env: Env, records: Db.Entries, name: string)
    requires records != [] && env.serde.parse(records[0].1).Ok?
    requires Json.AsStr(Json.Field(env.serde.parse(records[0].1).value, FileNameKey)) == Some(name)
    requires Loadable(env, name) && m.log.receiverAlive
    ensures var l := LoadByFileName(m, env, name, DefaultContext());
            && Replay(m, env, records) == Replay(l.m, env, records[1..])
            && l.m.store.running == m.store.running[InstanceOf(env, name).id := InstanceOf(env, name)]
            && l.m.log.actions == m.log.actions + [LoadHook(InstanceOf(env, name)), Sent(LoadedNotice(DefaultContext(), InstanceOf(env, name)))]
            && l.m.log.receiverAlive
  {
    LoadByFileNameLoads(m, env, name, DefaultContext());
  }

  /** The effect of loading a list of names is that of its first name followed by the rest. */
  lemma LoadActionsCons(before: seq<Action<EmitContent>>, env: Env, names: seq<string>, ctx: Context)
    requires names != [] && AllLoadable(env, names)
    ensures Loadable(env, names[0]) && AllLoadable(env, names[1..])
    ensures var i := InstanceOf(env, names[0]);
            && before + LoadActions(env, names, ctx)
               == (before + [LoadHook(i), Sent(LoadedNotice(ctx, i))]) + LoadActions(env, names[1..], ctx)
  {
    AllLoadableTail(env, names);
  }

  // ---------------------------------------------------------------------------
  // Install, remove, list

  /** The `error` notification for a failed request. */
  function ErrorNotice(requestId: string, message: string): (c: EmitContent)
    ensures c.id == requestId && c.event == ErrorEvent && c.payload == message
  {
    EmitContent(requestId, ErrorEvent, message)
  }

  /**
   How an install fails once the copy succeeded and the path is a file,
   whatever the file-name encoding. A library that fails to open returns the
   loader's error; any failed load returns its error with the records as they
   were. For an instance that loads, info that is not JSON returns the `Json`
   host error, and info that parses to neither null nor an object panics at the
   field assignment; in both cases the instance stays registered and no
   record is stored.
   */
  predicate InstallFailures(m: Manager, env: Env, path: string, ctx: Context, r: Run<()>)
  {
    var src := env.source(path);
    var l := LoadByFileName(m, env, src.fileName, ctx);
    src.copyError.None? && src.isFile ==>
      && (env.addLibrary(src.fileName).OpenFailed? ==>
            r == Run(m, Returned(Err(LibLoadError(env.addLibrary(src.fileName).error)))))
      && (l.exit.result.Err? ==> r == Run(l.m, Returned(Err(l.exit.result.error))) && r.m.db == m.db)
      && (Loadable(env, src.fileName) && m.log.receiverAlive ==>
            var i := InstanceOf(env, src.fileName);
            var p := env.serde.parse(i.info);
            && (p.Err? || !(p.value.Null? || p.value.Object?) ==>
                  r.m.db == m.db && r.m.store.running == m.store.running[i.id := i])
            && (p.Err? ==> r.exit == Returned(Err(FromJsonError(p.error))))
            && (p.Ok? && !(p.value.Null? || p.value.Object?) ==> r.exit.Panicked?))
  }

  /**
   `install_extension`, with the way the file name is written into the record
   as a parameter. The copy into the install directory comes first, so its
   failure is reported before anything else is looked at; a path that is not
   a file is answered with an `error` notification and still returns `Ok`.
   Otherwise the library is loaded and registered, its info is parsed, given
   the `__file_name` field and stored under the extension id.
   */
  function InstallWith(m: Manager, env: Env, path: string, ctx: Context, encodeName: string -> Json.Value): (r: Run<()>)
    requires Db.Sorted(m.db)
    ensures Db.Sorted(r.m.db)
    ensures var src := env.source(path);
      src.copyError.Some? ==> r == Run(m, Returned(Err(FromIoError(src.copyError.value))))
    ensures var src := env.source(path);
      src.copyError.None? && !src.isFile ==>
        && r.m.store == m.store && r.m.db == m.db && r.exit.Returned?
        && (m.log.receiverAlive ==>
              r.exit.result.Ok? && r.m.log.actions == m.log.actions + [Sent(ErrorNotice(ctx.id, NotAFileMessage))])
        && (!m.log.receiverAlive ==> r.m.log == m.log && r.exit.result.Err? && r.exit.result.error.EmitSendError?)
    ensures r.m.db != m.db ==>
      var src := env.source(path);
      && src.copyError.None? && src.isFile && r.exit == Returned(Ok(()))
    ensures InstallFailures(m, env, path, ctx, r)
  {
    var src := env.source(path);
    if src.copyError.Some? then Run(m, Returned(Err(FromIoError(src.copyError.value))))
    else if !src.isFile then
      var (log, sent) := Send(m.log, ErrorNotice(ctx.id, NotAFileMessage));
      if sent.Err? then Run(m.(log := log), Returned(Err(FromSendError(sent.error))))
      else Run(m.(log := log), Returned(Ok(())))
    else
      var l := LoadByFileName(m, env, src.fileName, ctx);
      if l.exit.result.Err? then Run(l.m, Returned(Err(l.exit.result.error)))
      else
        var (id, info) := l.exit.result.value;
        match env.serde.parse(info)
        case Err(je) => Run(l.m, Returned(Err(FromJsonError(je))))
        case Ok(v) =>
          match Json.SetField(v, FileNameKey, encodeName(src.fileName))
          case None => Run(l.m, Panicked)
          case Some(annotated) =>
            Run(l.m.(db := Db.Insert(l.m.db, id, env.serde.render(annotated))), Returned(Ok(())))
  }

  /**
   `json!(file_name)` as written: the file name is an `OsStr`, which serde
   writes as the platform variant holding the name's code units, not as a
   string.
   */
  function OsStrValue(name: string): (v: Json.Value)
    ensures v.Object? && Json.AsStr(Json.Field(v, FileNameKey)).None?
  {
    Json.Object(map["Unix" := Json.Other(name)])
  }

  /**
   `install_extension` as written, the one the command loop runs:
   `__file_name` holds the `OsStr` serialisation. A failed copy changes
   nothing; a successful install registers and announces the instance and
   stores its info under its id with that field added.
   */
  function InstallAsWritten(m: Manager, env: Env, path: string, ctx: Context): (r: Run<()>)
    requires Db.Sorted(m.db)
    ensures Db.Sorted(r.m.db)
    ensures var src := env.source(path);
      src.copyError.Some? ==> r == Run(m, Returned(Err(FromIoError(src.copyError.value))))
    ensures InstallFailures(m, env, path, ctx, r)
    ensures InstallSucceeds(m, env, path) ==>
      var name := env.source(path).fileName;
      var i := InstanceOf(env, name);
      && r.exit == Returned(Ok(()))
      && r.m.store.running == m.store.running[i.id := i]
      && r.m.log.actions == m.log.actions + [LoadHook(i), Sent(LoadedNotice(ctx, i))]
      && Db.ToMap(r.m.db)
         == Db.ToMap(m.db)[i.id := env.serde.render(Annotated(env.serde.parse(i.info).value, OsStrValue(name)))]
  {
    if InstallSucceeds(m, env, path) then
      InstallStoresRecord(m, env, path, ctx, n => OsStrValue(n));
      InstallWith(m, env, path, ctx, n => OsStrValue(n))
    else
      InstallWith(m, env, path, ctx, n => OsStrValue(n))
  }

  /**
   `install_extension` as intended: `__file_name` holds the file name as a
   string. Failures are those of the version as written; a successful
   install stores the string-valued record.
   */
  function Install(m: Manager, env: Env, path: string, ctx: Context): (r: Run<()>)
    requires Db.Sorted(m.db)
    ensures Db.Sorted(r.m.db)
    ensures var src := env.source(path);
      src.copyError.Some? ==> r == Run(m, Returned(Err(FromIoError(src.copyError.value))))
    ensures InstallFailures(m, env, path, ctx, r)
    ensures InstallSucceeds(m, env, path) ==>
      var name := env.source(path).fileName;
      var i := InstanceOf(env, name);
      && r.exit == Returned(Ok(()))
      && r.m.store.running == m.store.running[i.id := i]
      && r.m.log.actions == m.log.actions + [LoadHook(i), Sent(LoadedNotice(ctx, i))]
      && Db.ToMap(r.m.db)
         == Db.ToMap(m.db)[i.id := env.serde.render(Annotated(env.serde.parse(i.info).value, Json.Str(name)))]
  {
    if InstallSucceeds(m, env, path) then
      InstallStoresRecord(m, env, path, ctx, n => Json.Str(n));
      InstallWith(m, env, path, ctx, n => Json.Str(n))
    else
      InstallWith(m, env, path, ctx, n => Json.Str(n))
  }

  /**
   The path removal deletes: the JSON text of the record's `__file_name`
   field, quotes included, as a path relative to the working directory.
   */
  function BackingPath(serde: Json.Serde, record: Json.Value): (r: string)
  {
    serde.render(Json.Field(record, FileNameKey))
  }

  /**
   `remove_extension`: unload the live instance (nothing to do if none), then
   delete the record; without a record the removal fails with the
   not-installed message, and a removed record's backing file is deleted.
   */
  function Remove(m: Manager, env: Env, id: string, ctx: Context): (r: Run<()>)
    requires Db.Sorted(m.db)
    ensures Db.Sorted(r.m.db)
    ensures Db.ToMap(r.m.db) == Db.ToMap(m.db) - {id} || r.m.db == m.db
    ensures id !in Db.ToMap(m.db) && (id !in m.store.running || m.log.receiverAlive) ==>
      && r.exit == Returned(Err(ExtRemoveError(NotInstalledMessage(id))))
      && r.m.store.running == m.store.running - {id}
      && Db.ToMap(r.m.db) == Db.ToMap(m.db)
    ensures id !in Db.ToMap(m.db) && id !in m.store.running ==> r.m.log == m.log
    ensures id !in m.store.running ==> r.m.log == m.log
    ensures id in m.store.running && m.log.receiverAlive ==>
      r.m.log.actions == m.log.actions + [UnloadHook(m.store.running[id]), Sent(UnloadedNotice(ctx, id))]
    ensures id in m.store.running && !m.log.receiverAlive ==>
      && r.exit.Returned? && r.exit.result.Err? && r.exit.result.error.EmitSendError?
      && r.m.store.running == m.store.running - {id} && r.m.db == m.db
    ensures id in Db.ToMap(m.db) && (id !in m.store.running || m.log.receiverAlive) ==>
      var p := env.serde.parse(Db.ToMap(m.db)[id]);
      && r.m.store.running == m.store.running - {id}
      && Db.ToMap(r.m.db) == Db.ToMap(m.db) - {id}
      && (p.Err? ==> r.exit.Panicked?)
      && (p.Ok? && env.removeFile(BackingPath(env.serde, p.value)).Some? ==>
            r.exit == Returned(Err(FromIoError(env.removeFile(BackingPath(env.serde, p.value)).value))))
      && (p.Ok? && env.removeFile(BackingPath(env.serde, p.value)).None? ==> r.exit == Returned(Ok(())))
  {
    var u := UnloadExtensionById(m.store, m.log, id, ctx);
    var m1 := Manager(u.store, m.db, u.log);
    if u.result.Err? then Run(m1, Returned(Err(u.result.error)))
    else
      var (db, prev) := Db.Remove(m.db, id);
      var m2 := m1.(db := db);
      match prev
      case None => Run(m2, Returned(Err(ExtRemoveError(NotInstalledMessage(id)))))
      case Some(record) =>
        match env.serde.parse(record)
        case Err(_) => Run(m2, Panicked)
        case Ok(v) =>
          match env.removeFile(BackingPath(env.serde, v))
          case Some(e) => Run(m2, Returned(Err(FromIoError(e))))
          case None => Run(m2, Returned(Ok(())))
  }

  /** The record a successful install stores for the parsed info `v`. */
  function Annotated(v: Json.Value, name: Json.Value): (a: Json.Value)
    requires v.Null? || v.Object?
    ensures a.Object? && Json.Field(a, FileNameKey) == name
    ensures forall k :: k != FileNameKey ==> Json.Field(a, k) == Json.Field(v, k)
  {
    Json.SetField(v, FileNameKey, name).value
  }

  /** The conditions under which an install of `path` gets as far as storing a record. */
  predicate InstallSucceeds(m: Manager, env: Env, path: string)
  {
    var src := env.source(path);
    && src.copyError.None? && src.isFile && Loadable(env, src.fileName) && m.log.receiverAlive
    && env.serde.parse(InstanceOf(env, src.fileName).info).Ok?
    && (env.serde.parse(InstanceOf(env, src.fileName).info).value.Null?
        || env.serde.parse(InstanceOf(env, src.fileName).info).value.Object?)
  }

  /**
   A successful install registers the instance, announces it, and stores its
   info under its id with `__file_name` set to the encoded file name and
   every other field as the extension reported it.
   */
  lemma InstallStoresRecord(m: Manager, env: Env, path: string, ctx: Context, encodeName: string -> Json.Value)
    requires Db.Sorted(m.db) && InstallSucceeds(m, env, path)
    ensures var name := env.source(path).fileName;
            var i := InstanceOf(env, name);
            var v := env.serde.parse(i.info).value;
            var r := InstallWith(m, env, path, ctx, encodeName);
            && r.exit == Returned(Ok(()))
            && r.m.store.running == m.store.running[i.id := i]
            && r.m.log.actions == m.log.actions + [LoadHook(i), Sent(LoadedNotice(ctx, i))]
            && Db.ToMap(r.m.db) == Db.ToMap(m.db)[i.id := env.serde.render(Annotated(v, encodeName(name)))]
  {
    LoadByFileNameLoads(m, env, env.source(path).fileName, ctx);
  }

  /**
   As written, the record a successful install stores has no string
   `__file_name` once read back, so startup skips it: the extension is not
   loaded again after a restart.
   */
  lemma AsWrittenRecordIsNotReplayed(m: Manager, env: Env, path: string, ctx: Context)
    requires Db.Sorted(m.db) && InstallSucceeds(m, env, path)
    requires var name := env.source(path).fileName;
             Json.RoundTrips(env.serde, Annotated(env.serde.parse(InstanceOf(env, name).info).value, OsStrValue(name)))
    ensures var r := InstallAsWritten(m, env, path, ctx);
            var id := InstanceOf(env, env.source(path).fileName).id;
            && r.exit == Returned(Ok(()))
            && id in Db.ToMap(r.m.db)
            && RecordFileName(env.serde, Db.ToMap(r.m.db)[id]).None?
  {
    InstallStoresRecord(m, env, path, ctx, n => OsStrValue(n));
  }

  /**
   With the file name stored as a string, the record a successful install
   stores names the installed file, so startup loads it again.
   */
  lemma InstalledRecordIsReplayed(m: Manager, env: Env, path: string, ctx: Context)
    requires Db.Sorted(m.db) && InstallSucceeds(m, env, path)
    requires var name := env.source(path).fileName;
             Json.RoundTrips(env.serde, Annotated(env.serde.parse(InstanceOf(env, name).info).value, Json.Str(name)))
    ensures var r := Install(m, env, path, ctx);
            var id := InstanceOf(env, env.source(path).fileName).id;
            && r.exit == Returned(Ok(()))
            && id in Db.ToMap(r.m.db)
            && RecordFileName(env.serde, Db.ToMap(r.m.db)[id]) == Some(env.source(path).fileName)
  {
    InstallStoresRecord(m, env, path, ctx, n => Json.Str(n));
  }

  /**
   An info text that is not JSON fails the install after the extension was
   registered and announced: it keeps running, but no record is stored.
   */
  lemma InstallWithBadInfoKeepsInstance(m: Manager, env: Env, path: string, ctx: Context, encodeName: string -> Json.Value)
    requires Db.Sorted(m.db)
    requires var src := env.source(path);
             src.copyError.None? && src.isFile && Loadable(env, src.fileName) && m.log.receiverAlive
    requires env.serde.parse(InstanceOf(env, env.source(path).fileName).info).Err?
    ensures var i := InstanceOf(env, env.source(path).fileName);
            var r := InstallWith(m, env, path, ctx, encodeName);
            && r.exit == Returned(Err(TauriError(TauriJson(env.serde.parse(i.info).error))))
            && r.m.store.running == m.store.running[i.id := i]
            && r.m.db == m.db
  {
    LoadByFileNameLoads(m, env, env.source(path).fileName, ctx);
  }

  /**
   Removing an installed extension succeeds once and deletes its record;
   removing it again fails with the not-installed message and changes nothing.
   */
  lemma RemoveTwice(m: Manager, env: Env, id: string, ctx: Context)
    requires Db.Sorted(m.db) && id in Db.ToMap(m.db) && m.log.receiverAlive
    requires env.serde.parse(Db.ToMap(m.db)[id]).Ok?
    requires env.removeFile(BackingPath(env.serde, env.serde.parse(Db.ToMap(m.db)[id]).value)).None?
    ensures var r1 := Remove(m, env, id, ctx);
            var r2 := Remove(r1.m, env, id, ctx);
            && r1.exit == Returned(Ok(()))
            && id !in r1.m.store.running && Db.ToMap(r1.m.db) == Db.ToMap(m.db) - {id}
            && r2.exit == Returned(Err(ExtRemoveError(NotInstalledMessage(id))))
            && r2.m == r1.m
  {
    var r1 := Remove(m, env, id, ctx);
    assert id !in r1.m.store.running;
  }

  /** The `loaded_extension` notification for a stored record: `{id: record text}`. */
  function ListedNotice(ctx: Context, entry: (string, string)): (c: EmitContent)
    ensures c.id == ctx.id && c.event == LoadedEvent
    ensures Json.ParseEntry(c.payload) == Some(entry)
  {
    Json.ObjectTextParses(entry.0, entry.1);
    EmitContent(ctx.id, LoadedEvent, Json.ObjectText(entry.0, entry.1))
  }

  /** One `loaded_extension` message per record, in iteration order. */
  function Listing(ctx: Context, entries: Db.Entries): (r: seq<Action<EmitContent>>)
    ensures |r| == |entries|
  {
    if entries == [] then [] else [Sent(ListedNotice(ctx, entries[0]))] + Listing(ctx, entries[1..])
  }

  /** The loop of `list_all_extension` over the given records. */
  function ListEntries(m: Manager, entries: Db.Entries, ctx: Context): (r: Run<()>)
    ensures r.m.db == m.db && r.m.store == m.store && r.exit.Returned?
    ensures r.m.log.receiverAlive == m.log.receiverAlive
    ensures r.exit.result.Err? <==> entries != [] && !m.log.receiverAlive
    ensures r.exit.result.Err? ==> r.m.log == m.log && r.exit.result.error.EmitSendError?
    decreases |entries|
  {
    if entries == [] then Run(m, Returned(Ok(())))
    else
      var (log, sent) := Send(m.log, ListedNotice(ctx, entries[0]));
      if sent.Err? then Run(m.(log := log), Returned(Err(FromSendError(sent.error))))
      else ListEntries(m.(log := log), entries[1..], ctx)
  }

  /** `list_all_extension`: announce every stored record to the requester. */
  function ListAll(m: Manager, ctx: Context): (r: Run<()>)
    ensures r.m.db == m.db && r.m.store == m.store && r.exit.Returned?
    ensures r.exit.result.Err? <==> m.db != [] && !m.log.receiverAlive
  {
    ListEntries(m, m.db, ctx)
  }

  /** With the channel open, listing sends exactly one message per record, in order, and succeeds. */
  lemma {:induction false} ListEntriesSendsListing(m: Manager, entries: Db.Entries, ctx: Context)
    requires m.log.receiverAlive
    ensures var r := ListEntries(m, entries, ctx);
            r.exit == Returned(Ok(())) && r.m.log.actions == m.log.actions + Listing(ctx, entries)
    decreases |entries|
  {
    if entries != [] {
      var (log, _) := Send(m.log, ListedNotice(ctx, entries[0]));
      ListEntriesSendsListing(m.(log := log), entries[1..], ctx);
    }
  }

  // ---------------------------------------------------------------------------
  // The command loop

  /**
   A failed install or remove is answered with one `error` notification to
   the requester carrying the error's text; if even that cannot be sent, the
   `unwrap` panics.
   */
  function ReportFailure(r: Run<()>, requestId: string): (out: Run<()>)
    ensures r.exit.Panicked? || r.exit.result.Ok? ==> out == r
    ensures r.exit.Returned? && r.exit.result.Err? ==>
      && out.m.store == r.m.store && out.m.db == r.m.db
      && (r.m.log.receiverAlive ==>
            && out.exit == Returned(Ok(()))
            && out.m.log.actions == r.m.log.actions + [Sent(ErrorNotice(requestId, Display(r.exit.result.error)))])
      && (!r.m.log.receiverAlive ==> out.exit.Panicked?)
  {
    if r.exit.Panicked? || r.exit.result.Ok? then r
    else
      var (log, sent) := Send(r.m.log, ErrorNotice(requestId, Display(r.exit.result.error)));
      if sent.Err? then Run(r.m.(log := log), Panicked)
      else Run(r.m.(log := log), Returned(Ok(())))
  }

  /** The install or removal a request asks for, before any failure is reported. */
  function Attempt(m: Manager, env: Env, cmd: ManagerEvent): (r: Run<()>)
    requires Db.Sorted(m.db) && !cmd.ListAllExtension?
    ensures Db.Sorted(r.m.db)
  {
    if cmd.InstallExtension? then InstallAsWritten(m, env, cmd.content.payload, Context(cmd.content.id))
    else Remove(m, env, cmd.content.payload, Context(cmd.content.id))
  }

  /**
   One turn of the command loop. A failed listing panics through `unwrap`:
   a listing panics exactly when there is a record to send and the channel
   is closed.
   */
  function Handle(m: Manager, env: Env, cmd: ManagerEvent): (r: Run<()>)
    requires Db.Sorted(m.db)
    ensures Db.Sorted(r.m.db)
    ensures r.exit.Returned? ==> r.exit.result.Ok?
    ensures cmd.ListAllExtension? ==> (r.exit.Panicked? <==> m.db != [] && !m.log.receiverAlive)
    ensures cmd.ListAllExtension? ==> r.m.store == m.store && r.m.db == m.db
  {
    match cmd
    case ListAllExtension(c) =>
      var l := ListAll(m, Context(c.id));
      if l.exit.result.Err? then Run(l.m, Panicked) else l
    case _ => ReportFailure(Attempt(m, env, cmd), cmd.content.id)
  }

  /**
   A failed install or removal leaves the loop running and adds exactly one
   notification: an `error` to the requester carrying the failure's text.
   */
  lemma FailedRequestAnsweredOnce(m: Manager, env: Env, cmd: ManagerEvent)
    requires Db.Sorted(m.db) && !cmd.ListAllExtension?
    requires var a := Attempt(m, env, cmd); a.exit.Returned? && a.exit.result.Err? && a.m.log.receiverAlive
    ensures var a := Attempt(m, env, cmd);
            var r := Handle(m, env, cmd);
            && r.exit == Returned(Ok(()))
            && r.m.store == a.m.store && r.m.db == a.m.db
            && r.m.log.actions == a.m.log.actions + [Sent(ErrorNotice(cmd.content.id, Display(a.exit.result.error)))]
  {
  }

  /** The command loop: commands handled one at a time in queue order, until one panics. */
  function RunCommands(m: Manager, env: Env, cmds: seq<ManagerEvent>): (r: Run<()>)
    requires Db.Sorted(m.db)
    ensures Db.Sorted(r.m.db)
    ensures r.exit.Returned? ==> r.exit.result.Ok?
    decreases |cmds|
  {
    if cmds == [] then Run(m, Returned(Ok(())))
    else
      var h := Handle(m, env, cmds[0]);
      if h.exit.Panicked? then h else RunCommands(h.m, env, cmds[1..])
  }

  /** Handling a queue in two parts is handling the first part, then the second from where it left off. */
  lemma {:induction false} RunCommandsConcat(m: Manager, env: Env, a: seq<ManagerEvent>, b: seq<ManagerEvent>)
    requires Db.Sorted(m.db)
    ensures var ra := RunCommands(m, env, a);
            ra.exit.Returned? ==> RunCommands(m, env, a + b) == RunCommands(ra.m, env, b)
    ensures RunCommands(m, env, a).exit.Panicked? ==> RunCommands(m, env, a + b) == RunCommands(m, env, a)
    decreases |a|
  {
    if a == [] {
      assert a + b == b;
    } else {
      assert (a + b)[0] == a[0] && (a + b)[1..] == a[1..] + b;
      var h := Handle(m, env, a[0]);
      if h.exit.Returned? {
        RunCommandsConcat(h.m, env, a[1..], b);
      }
    }
  }

  /** Removing a running, installed extension over an open channel unloads it, announces it and deletes its record. */
  lemma RemoveInstalled(m: Manager, env: Env, id: string, ctx: Context)
    requires Db.Sorted(m.db) && id in m.store.running && id in Db.ToMap(m.db) && m.log.receiverAlive
    requires env.serde.parse(Db.ToMap(m.db)[id]).Ok?
    requires env.removeFile(BackingPath(env.serde, env.serde.parse(Db.ToMap(m.db)[id]).value)).None?
    ensures var r := Remove(m, env, id, ctx);
            && r.exit == Returned(Ok(()))
            && r.m.store.running == m.store.running - {id}
            && Db.ToMap(r.m.db) == Db.ToMap(m.db) - {id}
            && r.m.log.actions == m.log.actions + [UnloadHook(m.store.running[id]), Sent(UnloadedNotice(ctx, id))]
  {
  }

  /** A command that does not panic is handled, then the rest of the queue. */
  lemma RunCons(m: Manager, env: Env, c: ManagerEvent, rest: seq<ManagerEvent>)
    requires Db.Sorted(m.db) && Handle(m, env, c).exit.Returned?
    ensures RunCommands(m, env, [c] + rest) == RunCommands(Handle(m, env, c).m, env, rest)
  {
    assert ([c] + rest)[0] == c && ([c] + rest)[1..] == rest;
  }

  /** Three queued commands none of which panics run one after the other. */
  lemma RunThree(m: Manager, env: Env, c0: ManagerEvent, c1: ManagerEvent, c2: ManagerEvent)
    requires Db.Sorted(m.db)
    requires Handle(m, env, c0).exit.Returned?
    requires Handle(Handle(m, env, c0).m, env, c1).exit.Returned?
    ensures RunCommands(m, env, [c0, c1, c2]) == Handle(Handle(Handle(m, env, c0).m, env, c1).m, env, c2)
  {
    var m1 := Handle(m, env, c0).m;
    var m2 := Handle(m1, env, c1).m;
    RunCons(m, env, c0, [c1, c2]);
    assert [c0, c1, c2] == [c0] + [c1, c2];
    RunCons(m1, env, c1, [c2]);
    assert [c1, c2] == [c1] + [c2];
    assert RunCommands(m, env, [c0, c1, c2]) == RunCommands(m2, env, [c2]);
    var h := Handle(m2, env, c2);
    if h.exit.Returned? {
      RunCons(m2, env, c2, []);
      assert [c2] == [c2] + [];
      assert h.exit.result.Ok? && h.exit.result.value == ();
      assert h == Run(h.m, Returned(Ok(())));
    } else {
      assert RunCommands(m2, env, [c2]) == h;
    }
  }

  /** The first two turns of `InstallRemoveList`: an install that succeeds, then the removal of what it installed. */
  lemma InstallThenRemove(m: Manager, env: Env, path: string, installId: string, removeId: string)
    requires Db.Sorted(m.db) && InstallSucceeds(m, env, path)
    requires var name := env.source(path).fileName;
             var a := Annotated(env.serde.parse(InstanceOf(env, name).info).value, OsStrValue(name));
             Json.RoundTrips(env.serde, a) && env.removeFile(BackingPath(env.serde, a)).None?
    ensures var i := InstanceOf(env, env.source(path).fileName);
            var h1 := Handle(m, env, InstallExtension(EventContent(installId, path)));
            var h2 := Handle(h1.m, env, RemoveExtension(EventContent(removeId, i.id)));
            && h1.exit.Returned? && h2.exit.Returned?
            && i.id !in h2.m.store.running && i.id !in Db.ToMap(h2.m.db)
            && h2.m.log.receiverAlive
            && h2.m.log.actions == m.log.actions
                 + [LoadHook(i), Sent(LoadedNotice(Context(installId), i)),
                    UnloadHook(i), Sent(UnloadedNotice(Context(removeId), i.id))]
  {
    var name := env.source(path).fileName;
    var i := InstanceOf(env, name);
    var c0, c1 := InstallExtension(EventContent(installId, path)), RemoveExtension(EventContent(removeId, i.id));
    var h1 := InstallAsWritten(m, env, path, Context(installId));
    assert Attempt(m, env, c0) == h1;
    assert Handle(m, env, c0) == h1;
    RemoveInstalled(h1.m, env, i.id, Context(removeId));
    var h2 := Remove(h1.m, env, i.id, Context(removeId));
    assert Attempt(h1.m, env, c1) == h2;
    assert Handle(h1.m, env, c1) == h2;
  }

  /**
   Install, then remove, then list, queued in that order: the requester of
   the install hears `loaded_extension`, the requester of the removal hears
   `unloaded_extension`, and the listing that follows no longer names the
   extension.
   */
  lemma InstallRemoveList(m: Manager, env: Env, path: string, installId: string, removeId: string, listId: string)
    requires Db.Sorted(m.db) && InstallSucceeds(m, env, path)
    requires var name := env.source(path).fileName;
             var a := Annotated(env.serde.parse(InstanceOf(env, name).info).value, OsStrValue(name));
             Json.RoundTrips(env.serde, a) && env.removeFile(BackingPath(env.serde, a)).None?
    ensures var i := InstanceOf(env, env.source(path).fileName);
            var r := RunCommands(m, env, [InstallExtension(EventContent(installId, path)),
                                          RemoveExtension(EventContent(removeId, i.id)),
                                          ListAllExtension(EventContent(listId, listId))]);
            && r.exit == Returned(Ok(()))
            && i.id !in r.m.store.running
            && (forall k :: 0 <= k < |r.m.db| ==> r.m.db[k].0 != i.id)
            && r.m.log.actions == m.log.actions
                 + [LoadHook(i), Sent(LoadedNotice(Context(installId), i)),
                    UnloadHook(i), Sent(UnloadedNotice(Context(removeId), i.id))]
                 + Listing(Context(listId), r.m.db)
  {
    var i := InstanceOf(env, env.source(path).fileName);
    var c0, c1, c2 := InstallExtension(EventContent(installId, path)),
                      RemoveExtension(EventContent(removeId, i.id)), ListAllExtension(EventContent(listId, listId));
    InstallThenRemove(m, env, path, installId, removeId);
    var h2 := Handle(Handle(m, env, c0).m, env, c1);
    RunThree(m, env, c0, c1, c2);
    ListEntriesSendsListing(h2.m, h2.m.db, Context(listId));
    forall k | 0 <= k < |h2.m.db| ensures h2.m.db[k].0 != i.id {
      Db.ToMapKeys(h2.m.db, i.id);
    }
  }

  /**
   The same three commands when the copy fails, as the copy onto the install
   directory does as written: the install is answered with the `Io` error,
   the removal of the id it would have installed with the not-installed
   error, and the listing shows the records as they were.
   */
  lemma InstallRemoveListCopyFails(m: Manager, env: Env, path: string, id: string,
                                   installId: string, removeId: string, listId: string)
    requires Db.Sorted(m.db) && m.log.receiverAlive
    requires env.source(path).copyError.Some?
    requires id !in m.store.running && id !in Db.ToMap(m.db)
    ensures var e := FromIoError(env.source(path).copyError.value);
            var r := RunCommands(m, env, [InstallExtension(EventContent(installId, path)),
                                          RemoveExtension(EventContent(removeId, id)),
                                          ListAllExtension(EventContent(listId, listId))]);
            && r.exit == Returned(Ok(()))
            && r.m.store == m.store && r.m.db == m.db
            && r.m.log.actions == m.log.actions
                 + [Sent(ErrorNotice(installId, Display(e))),
                    Sent(ErrorNotice(removeId, Display(ExtRemoveError(NotInstalledMessage(id)))))]
                 + Listing(Context(listId), m.db)
  {
    var c0, c1, c2 := InstallExtension(EventContent(installId, path)),
                      RemoveExtension(EventContent(removeId, id)), ListAllExtension(EventContent(listId, listId));
    var a0 := InstallAsWritten(m, env, path, Context(installId));
    assert Attempt(m, env, c0) == a0;
    var h1 := Handle(m, env, c0);
    assert h1.exit.Returned? && h1.m.store == m.store && h1.m.db == m.db && h1.m.log.receiverAlive;
    var a1 := Remove(h1.m, env, id, Context(removeId));
    assert Attempt(h1.m, env, c1) == a1;
    var h2 := Handle(h1.m, env, c1);
    assert h2.exit.Returned? && h2.m.store == m.store && h2.m.db == m.db && h2.m.log.receiverAlive;
    RunThree(m, env, c0, c1, c2);
    ListEntriesSendsListing(h2.m, h2.m.db, Context(listId));
  }

  // ---------------------------------------------------------------------------
  // Hot reload

  /** The notification `dynamic_reload` gives for one library. */
  datatype UpdateState = Before | After | ReloadFailed(error: ReloadError)

  /** The registry and channel after a reload callback, and whether its `expect` panicked. */
  datatype Reloaded = Reloaded(store: Extensions, log: Log, panicked: bool)

  /**
   The callback of `try_hot_reload`: `Before` unloads the running instance
   the outgoing library's id names, `After` loads the incoming library, and a
   failed reload only prints. Any error, or a missing library, panics.
   */
  function OnUpdate(s: Extensions, log: Log, state: UpdateState, lib: Option<Lib>): (r: Reloaded)
    ensures state.ReloadFailed? ==> r == Reloaded(s, log, false)
    ensures lib.None? && !state.ReloadFailed? ==> r.panicked
    ensures state.Before? && lib.Some? ==>
      var u := UnloadExtension(s, log, lib.value, DefaultContext());
      r == Reloaded(u.store, u.log, u.result.Err?)
    ensures state.After? && lib.Some? ==>
      var l := LoadExtension(s, log, lib.value, DefaultContext());
      r == Reloaded(l.store, l.log, l.result.Err?)
  {
    match state
    case ReloadFailed(_) => Reloaded(s, log, false)
    case Before =>
      if lib.None? then Reloaded(s, log, true)
      else
        var u := UnloadExtension(s, log, lib.value, DefaultContext());
        Reloaded(u.store, u.log, u.result.Err?)
    case After =>
      if lib.None? then Reloaded(s, log, true)
      else
        var l := LoadExtension(s, log, lib.value, DefaultContext());
        Reloaded(l.store, l.log, l.result.Err?)
  }

  /**
   A reload of a running extension whose id is stable across builds: the
   old instance's `unload` runs before the new instance's `load`, and
   afterwards exactly the new instance runs under that id.
   */
  lemma ReloadSwapsInstance(s: Extensions, log: Log, outgoing: Lib, incoming: Lib)
    requires outgoing.newSymbol.Found? && incoming.newSymbol.Found?
    requires outgoing.newSymbol.instance.id == incoming.newSymbol.instance.id
    requires outgoing.newSymbol.instance.id in s.running
    requires log.receiverAlive
    ensures var id := outgoing.newSymbol.instance.id;
            var previous := s.running[id];
            var next := incoming.newSymbol.instance;
            var b := OnUpdate(s, log, Before, Some(outgoing));
            var a := OnUpdate(b.store, b.log, After, Some(incoming));
            && !b.panicked && !a.panicked
            && a.store.running == s.running[id := next]
            && a.log.actions == log.actions + [UnloadHook(previous), Sent(UnloadedNotice(DefaultContext(), id)),
                                               LoadHook(next), Sent(LoadedNotice(DefaultContext(), next))]
  {
    var id := outgoing.newSymbol.instance.id;
    assert (s.running - {id})[id := incoming.newSymbol.instance] == s.running[id := incoming.newSymbol.instance];
  }

  /**
   `dynamic_reload` reports `Before` ahead of trying the new build, so a build
   that then fails to load leaves the extension unloaded: the old instance is
   not kept running.
   */
  lemma FailedReloadLeavesExtensionUnloaded(s: Extensions, log: Log, outgoing: Lib, e: ReloadError)
    requires outgoing.newSymbol.Found? && outgoing.newSymbol.instance.id in s.running
    requires log.receiverAlive
    ensures var b := OnUpdate(s, log, Before, Some(outgoing));
            var f := OnUpdate(b.store, b.log, ReloadFailed(e), None);
            !f.panicked && outgoing.newSymbol.instance.id !in f.store.running
  {
  }
}

=== FILE: plugin_store.dfy ===
/**
 The vector-backed plugin store (`Plugins` under `src/plugin_manager`).
 Unlike the extension registries it keeps a list, so the same id may appear
 several times; unloading by id removes every copy.
 */
module PluginStore {
  import opened Results

  /** What the host sees of a plugin: its id and its optional front-end URL. */
  datatype Plugin = Plugin(id: string, url: Option<string>)

  /** An opened plugin library: `Some` plugin if its `new` symbol resolves. */
  datatype PluginLib = PluginLib(file: string, newSymbol: Option<Plugin>)

  datatype Plugins = Plugins(items: seq<Plugin>)

  /** A lifecycle hook called on a plugin. */
  datatype PluginEvent = LoadCalled(plugin: Plugin) | UnloadCalled(plugin: Plugin)

  /** `Plugins::new`: an empty store. */
  function New(): (r: Plugins)
    ensures |r.items| == 0
  {
    Plugins([])
  }

  /**
   `get_service`: the plugin `new` builds; `None` stands for the `unwrap` panic,
   which happens exactly when the library lacks the symbol.
   */
  function GetService(lib: PluginLib): (r: Option<Plugin>)
    ensures r.None? <==> lib.newSymbol.None?
    ensures r.Some? ==> r.value == lib.newSymbol.value
  {
    lib.newSymbol
  }

  /**
   `load_plugin`: build the plugin, run its `load` hook and push it at the end.
   `None` is the panic of a missing `new` symbol.
   */
  function LoadPlugin(store: Plugins, trace: seq<PluginEvent>, lib: PluginLib): (r: Option<(Plugins, seq<PluginEvent>)>)
    ensures r.None? <==> lib.newSymbol.None?
    ensures r.Some? ==>
      && |r.value.0.items| == |store.items| + 1
      && r.value.0.items[..|store.items|] == store.items
      && r.value.0.items[|store.items|] == lib.newSymbol.value
      && r.value.1 == trace + [LoadCalled(lib.newSymbol.value)]
  {
    match GetService(lib)
    case None => None
    case Some(p) => Some((Plugins(store.items + [p]), trace + [LoadCalled(p)]))
  }

  /** The plugins with the given id, in order. */
  function Matching(v: seq<Plugin>, id: string): (r: seq<Plugin>)
  {
    if v == [] then []
    else (if v[0].id == id then [v[0]] else []) + Matching(v[1..], id)
  }

  /** The plugins with another id, in order. */
  function Keep(v: seq<Plugin>, id: string): (r: seq<Plugin>)
  {
    if v == [] then []
    else (if v[0].id != id then [v[0]] else []) + Keep(v[1..], id)
  }

  function Reverse<T>(s: seq<T>): (r: seq<T>)
  {
    if s == [] then [] else Reverse(s[1..]) + [s[0]]
  }

  /** The `unload` hooks called on the given plugins, one each, in order. */
  function UnloadCalls(ps: seq<Plugin>): (r: seq<PluginEvent>)
    ensures |r| == |ps|
  {
    if ps == [] then [] else UnloadCalls(ps[..|ps| - 1]) + [UnloadCalled(ps[|ps| - 1])]
  }

  lemma UnloadCallsSnoc(ps: seq<Plugin>, p: Plugin)
    ensures UnloadCalls(ps + [p]) == UnloadCalls(ps) + [UnloadCalled(p)]
  {
    assert (ps + [p])[..|ps|] == ps;
  }

  lemma {:induction false} ReverseMultiset<T>(s: seq<T>)
    ensures multiset(Reverse(s)) == multiset(s)
  {
    if s != [] {
      ReverseMultiset(s[1..]);
      assert s == [s[0]] + s[1..];
    }
  }

  /** Every plugin either matches the id or is kept. */
  lemma {:induction false} SplitByIdMultiset(v: seq<Plugin>, id: string)
    ensures multiset(v) == multiset(Keep(v, id)) + multiset(Matching(v, id))
  {
    if v != [] {
      SplitByIdMultiset(v[1..], id);
      assert v == [v[0]] + v[1..];
    }
  }

  /** With no match, keeping the others keeps everything. */
  lemma {:induction false} KeepAllWhenNoneMatch(v: seq<Plugin>, id: string)
    requires Matching(v, id) == []
    ensures Keep(v, id) == v
  {
    if v != [] {
      assert v[0].id != id;
      KeepAllWhenNoneMatch(v[1..], id);
      assert v == [v[0]] + v[1..];
    }
  }

  /** `Vec::swap_remove`: the last element is copied over the removed one, then the vector shrinks by one. */
  function SwapRemove(v: seq<Plugin>, i: nat): (r: seq<Plugin>)
    requires i < |v|
    ensures |r| == |v| - 1
    ensures forall j :: 0 <= j < |r| && j != i ==> r[j] == v[j]
    ensures i < |r| ==> r[i] == v[|v| - 1]
  {
    v[i := v[|v| - 1]][..|v| - 1]
  }

  /** `swap_remove` takes out exactly the element at the index. */
  lemma SwapRemoveMultiset(v: seq<Plugin>, i: nat)
    requires i < |v|
    ensures multiset(SwapRemove(v, i)) == multiset(v) - multiset{v[i]}
  {
    var last := |v| - 1;
    var w := v[i := v[last]];
    assert multiset(w) == multiset(v) - multiset{v[i]} + multiset{v[last]};
    assert w == w[..last] + [v[last]];
    assert multiset(w) == multiset(w[..last]) + multiset{v[last]};
    MultisetCancel(multiset(w[..last]), multiset(v) - multiset{v[i]}, multiset{v[last]});
  }

  /** Moving the element at `i` from the store to the removed ones keeps the total. */
  lemma RemoveStepMultiset(v: seq<Plugin>, i: nat, removed: seq<Plugin>, items: seq<Plugin>)
    requires i < |v|
    requires multiset(v) + multiset(removed) == multiset(items)
    ensures multiset(SwapRemove(v, i)) + multiset(removed + [v[i]]) == multiset(items)
  {
    SwapRemoveMultiset(v, i);
    assert v[i] in multiset(v);
    assert multiset(removed + [v[i]]) == multiset(removed) + multiset{v[i]};
  }

  /** Scanning one more position from the back extends the reversed matches by that position. */
  lemma ReverseMatchingStep(s: seq<Plugin>, i: nat, id: string)
    requires i < |s|
    ensures Reverse(Matching(s[i..], id))
         == Reverse(Matching(s[i + 1..], id)) + (if s[i].id == id then [s[i]] else [])
  {
    assert s[i..][1..] == s[i + 1..];
    var m := Matching(s[i + 1..], id);
    if s[i].id == id {
      assert Matching(s[i..], id) == [s[i]] + m;
      assert ([s[i]] + m)[1..] == m;
    } else {
      assert Matching(s[i..], id) == m;
    }
  }

  /** What the finished backward scan amounts to. */
  lemma UnloadResult(items: seq<Plugin>, v: seq<Plugin>, removed: seq<Plugin>, id: string)
    requires removed == Reverse(Matching(items, id))
    requires multiset(v) + multiset(removed) == multiset(items)
    requires removed == [] ==> v == items
    ensures multiset(v) == multiset(Keep(items, id))
    ensures |v| == |items| - |Matching(items, id)|
    ensures Matching(items, id) == [] ==> v == items
  {
    var matching := Matching(items, id);
    ReverseMultiset(matching);
    SplitByIdMultiset(items, id);
    MultisetCancel(multiset(v), multiset(Keep(items, id)), multiset(removed));
    SameLengths(v, removed, items);
    assert |removed| == |multiset(removed)| == |multiset(matching)| == |matching|;
    if matching == [] {
      assert removed == [];
    }
  }

  lemma MultisetCancel<T>(a: multiset<T>, b: multiset<T>, c: multiset<T>)
    requires a + c == b + c
    ensures a == b
  {
    forall x
      ensures a[x] == b[x]
    {
      assert (a + c)[x] == (b + c)[x];
    }
  }

  lemma SameLengths<T>(v: seq<T>, r: seq<T>, s: seq<T>)
    requires multiset(v) + multiset(r) == multiset(s)
    ensures |v| + |r| == |s|
  {
    assert |multiset(v) + multiset(r)| == |multiset(v)| + |multiset(r)|;
  }

  /**
   What holds of the backward scan once positions `i..` of the original
   plugins have been looked at: what is left from `i` on has another id, what
   lies below `i` is untouched, the removed plugins are the matches of
   `items[i..]` from the back, and together with what is left they make up
   the original plugins.
   */
  ghost predicate Scanned(items: seq<Plugin>, id: string, i: nat, v: seq<Plugin>, removed: seq<Plugin>)
  {
    && i <= |v| <= |items|
    && (forall j :: i <= j < |v| ==> v[j].id != id)
    && (forall j :: 0 <= j < i ==> v[j] == items[j])
    && removed == Reverse(Matching(items[i..], id))
    && multiset(v) + multiset(removed) == multiset(items)
    && (removed == [] ==> v == items)
  }

  lemma ScanKeep(items: seq<Plugin>, id: string, i: nat, v: seq<Plugin>, removed: seq<Plugin>)
    requires 0 < i && Scanned(items, id, i, v, removed) && v[i - 1].id != id
    ensures Scanned(items, id, i - 1, v, removed)
  {
    ReverseMatchingStep(items, i - 1, id);
  }

  lemma ScanRemove(items: seq<Plugin>, id: string, i: nat, v: seq<Plugin>, removed: seq<Plugin>)
    requires 0 < i && Scanned(items, id, i, v, removed) && v[i - 1].id == id
    ensures Scanned(items, id, i - 1, SwapRemove(v, i - 1), removed + [v[i - 1]])
  {
    ReverseMatchingStep(items, i - 1, id);
    RemoveStepMultiset(v, i - 1, removed, items);
  }

  /**
   The loop of `unload_plugin`: walk the plugins from the back, unloading and
   `swap_remove`-ing every plugin with the id. Walking backwards keeps the
   index in bounds, and what `swap_remove` moves into the hole comes from the
   part already checked, so it needs no second look.
   */
  method RemoveAllWithId(items: seq<Plugin>, id: string) returns (v: seq<Plugin>, hooks: seq<PluginEvent>)
    ensures forall k :: 0 <= k < |v| ==> v[k].id != id
    ensures multiset(v) + multiset(Reverse(Matching(items, id))) == multiset(items)
    ensures hooks == UnloadCalls(Reverse(Matching(items, id)))
    ensures Reverse(Matching(items, id)) == [] ==> v == items
  {
    v := items;
    ghost var removed: seq<Plugin> := [];
    hooks := [];
    var i := |v|;
    assert items[i..] == [];
    while i > 0
      invariant Scanned(items, id, i, v, removed)
      invariant hooks == UnloadCalls(removed)
      decreases i
    {
      if v[i - 1].id == id {
        hooks := hooks + [UnloadCalled(v[i - 1])];
        UnloadCallsSnoc(removed, v[i - 1]);
        ScanRemove(items, id, i, v, removed);
        removed := removed + [v[i - 1]];
        v := SwapRemove(v, i - 1);
      } else {
        ScanKeep(items, id, i, v, removed);
      }
      i := i - 1;
    }
    assert items[0..] == items;
  }

  /**
   `unload_plugin`: ask a fresh plugin of the library for its id and remove
   every plugin with that id, calling `unload` once on each, in descending
   position order. The survivors keep their multiset but not necessarily
   their order.
   */
  method UnloadPlugin(store: Plugins, lib: PluginLib)
    returns (out: Plugins, hooks: seq<PluginEvent>, panicked: bool)
    ensures panicked <==> lib.newSymbol.None?
    ensures panicked ==> out == store && hooks == []
    ensures !panicked ==>
      var id := lib.newSymbol.value.id;
      && (forall k :: 0 <= k < |out.items| ==> out.items[k].id != id)
      && multiset(out.items) == multiset(Keep(store.items, id))
      && hooks == UnloadCalls(Reverse(Matching(store.items, id)))
      && |out.items| == |store.items| - |Matching(store.items, id)|
      && (Matching(store.items, id) == [] ==> out == store)
  {
    var service := GetService(lib);
    if service.None? {
      return store, [], true;
    }
    var id := service.value.id;
    var v;
    v, hooks := RemoveAllWithId(store.items, id);
    UnloadResult(store.items, v, Reverse(Matching(store.items, id)), id);
    out := Plugins(v);
    panicked := false;
  }

  /** Unlike the id-keyed registries, loading the same plugin twice keeps two copies. */
  lemma DuplicatesAllowed(store: Plugins, lib: PluginLib)
    requires lib.newSymbol.Some?
    ensures var once := LoadPlugin(store, [], lib).value.0;
            var twice := LoadPlugin(once, [], lib).value.0;
            |Matching(twice.items, lib.newSymbol.value.id)| >= 2
  {
    var p := lib.newSymbol.value;
    assert store.items + [p] + [p] == store.items + [p, p];
    MatchingAppend(store.items, [p, p], p.id);
    assert [p, p][1..] == [p] && [p][1..] == [];
  }

  lemma {:induction false} MatchingAppend(a: seq<Plugin>, b: seq<Plugin>, id: string)
    ensures Matching(a + b, id) == Matching(a, id) + Matching(b, id)
  {
    if a == [] {
      assert a + b == b;
    } else {
      MatchingAppend(a[1..], b, id);
      assert (a + b)[0] == a[0] && (a + b)[1..] == a[1..] + b;
    }
  }
}

=== FILE: results.dfy ===
/** Option and Result, the two failure-carrying shapes the Rust code returns. */
module Results {

  datatype Option<+T> = None | Some(value: T)

  /** `Result<T, E>` of the Rust code: `Ok(value)` or `Err(error)`. */
  datatype Result<+T, +E> = Ok(value: T) | Err(error: E)
}
